=== FILE: README.md ===
# BBQr split and join, modelled in Dafny

BBQr carries a file across a series of QR codes. The Rust crate encodes the
bytes as text (upper-case hex, unpadded Base32, or raw DEFLATE followed by
Base32). It cuts that text into parts. Every part is self-describing:

- `B$`;
- an encoding tag;
- a file-type tag;
- the part count in two base-36 digits;
- the part's index in two base-36 digits;
- then its slice of the text.

The joiner takes the parts in any order, checks that they agree, puts them
back in index order and decodes them.

This project models that pipeline as pure functions over `string`s and byte
sequences:

- the tag tables;
- the header parser;
- the encoder's choice of encoding;
- the per-part decoder;
- the splitter (option validation, choice of QR version, slicing);
- the batch joiner;
- the older sub-crate under `bbqr/src`, with its own header parser and header check.

It then proves what the code promises. The main results:

- The slices cover the encoded text exactly.
- Joining accepts a batch exactly when its parts are admissible, agree and are complete.
- An accepted join depends only on the set of non-empty parts. Which error a rejected batch reports can depend on the order of its parts.
- The header parsers, the two header checks and the placement step each report the error their check order names.
- Every header a split writes parses back.
- Joining the parts of a Hex split gives back the original bytes, under hypotheses on the planner and the constants only (`Loopback.HexSplitThenJoin`).
- For Base32 and Zlib the same holds under hypotheses on the codecs as well, when the Base32 text carries a whole number of 5-byte blocks (`Loopback.SplitThenJoin`). Otherwise the last part is silently lost (see Findings).

Modules:

- `Wrappers`: `Option`, `Result` and the byte type.
- `Encodings`: the tag table in src/encoding.rs.
- `Encode`: the tag table in src/encode.rs, `split_mod` and the encoder.
- `FileTypes`: the content-type table.
- `Radix36`: `usize::from_str_radix(_, 36)`.
- `Headers`: the header parser.
- `Base16`: the upper-case hex codec.
- `Codecs`: the foreign Base32 and DEFLATE codecs, left uninterpreted.
- `Consts`: the crate's constants.
- `Qr`: the planner and its order.
- `Slicing`: payload cutting.
- `Decode`: the per-part decoder.
- `Split`: the splitter.
- `Join`: the batch joiner.
- `Loopback`: the round trip.
- `LegacyEncodings`, `LegacyHeaders`, `LegacyJoin` and `LegacyCompat`: the older sub-crate, and how it relates to the newer one.

Text is a `string` whose characters stand for the ASCII bytes of the protocol.

Several parts of the system are not shown in the source, so they are uninitialised constants. Each carries only the contract the shown code relies on:

- the rendering `Header::to_string` (`Headers.ToText`): six characters the parser reads back;
- `int_to_padded_base_36` (`Headers.PaddedBase36`): two characters that parse back to the index;
- the planner `Encoded::number_of_qrs_needed` (`Qr.NumberOfQrsNeeded`): a plan for version v is at version v;
- the ordering of its results (`Qr.QrsLess`): a strict total order;
- `HEADER_LENGTH` (`Consts.HeaderLength`, at least 8) and `MAX_PARTS` (`Consts.MaxParts`);
- the Base32 and DEFLATE codecs (`Codecs`): nothing beyond their signatures.

The round trip names the facts it needs about these pieces as hypotheses:

- `Loopback.Base32RoundTrips`: the padded decoder reads back the unpadded text of a whole number of 5-byte blocks;
- `Loopback.PaddedRejectsPartialBlocks`: the padded decoder rejects text that is not a whole number of 8-character blocks;
- `Loopback.UnpaddedRoundTrips`: the unpadded decoder reads back any unpadded text;
- `Loopback.InflateInvertsDeflate`;
- `Loopback.PlannerFits`;
- `Loopback.ConstantsAsPublished`.

Where the code and its design description disagree, the model follows the code:

- The Zlib-or-Base32 choice compares the compressed bytes with the input lexicographically (`compressed < data` on two `Vec<u8>`), not by length.
- Per-part decode errors are dropped by `flat_map`, so they never surface.
- The encoder uses unpadded Base32 while the decoder uses the padded variant. They are kept as two separate functions, and the round trip does not assume that one inverts the other on text of a partial block.
- The header-agreement loop skips position 0 rather than the first non-empty part.
- An index that does not parse makes the joiner's `unwrap` panic. A slice past the end of the text makes the splitter panic. Each panic is a distinct error value (`Join.IndexPanic`, `Split.SlicePanic`).

## Model

| member | source | states |
|---|---|---|
| `Encodings.FromByte` | src/encoding.rs:9-16 | for every encoding e, the result is `Some(e)` exactly when the byte is e's tag (`H`, `2`, `Z`); every other byte gives `None` |
| `Encodings.IsKnownEncoding` | src/encoding.rs:18-20 | true exactly when `from_byte` succeeds, which is exactly the three bytes `H`, `2`, `Z` |
| `Encodings.FromByteInjective` | src/encoding.rs:9-16 | two accepted bytes that map to the same encoding are the same byte |
| `Encode.FromByte` | src/encode.rs:14-21 | the second declaration of the table maps each tag to its own encoding and nothing else |
| `Encode.IsKnownEncoding` | src/encode.rs:23-25 | true exactly for `H`, `2`, `Z` |
| `Encode.TablesAgree` | src/encode.rs:14-25 | both tag tables and both `is_known_encoding`s agree on every byte |
| `Encode.SplitMod` | src/encode.rs:27-33 | a positive number of characters; hex text of any bytes is always a whole number of units of it, and Base32 and Zlib text share the 8-character Base32 quantum |
| `Encode.LexLessMeans` | src/encode.rs:80 | `compressed < data` is the textbook lexicographic order: a proper prefix, or a smaller byte at the first position where the two differ |
| `Encode.LexLessIrreflexive` | src/encode.rs:80 | `<` on byte vectors is irreflexive |
| `Encode.LexLessTransitive` | src/encode.rs:80 | `<` on byte vectors is transitive |
| `Encode.LexLessTotal` | src/encode.rs:80 | two different byte vectors are ordered one way or the other |
| `Encode.LexLessIsNotShorter` | src/encode.rs:79-80 | the fallback test is not a length test: `[1]` is not below `[0, 0]`, while `[0, 0, 0]` is below `[1]` |
| `Encode.TryNewFromData` | src/encode.rs:52-97 | empty data and only empty data gives `Empty`; the only other error is a compressor failure on a Zlib request, carrying its message; Hex and Base32 requests keep their encoding, with hex or unpadded Base32 text of the input; a Zlib request whose compression succeeds gives Zlib, with Base32 of the compressed bytes, exactly when those bytes compare below the input, and Base32 of the input otherwise |
| `Encode.HexEncodedDecodes` | src/encode.rs:58-61 | hex text of non-empty data is twice as long as the data and decodes back to it |
| `Base16.DigitValue` | src/decode.rs:25-26 | only `0-9` and `A-F` are digits; the value read back is the nibble whose digit it is |
| `Base16.Encode` | src/encode.rs:59 | the hex text is two characters per byte |
| `Base16.Decode` | src/decode.rs:25-26 | a successful decode gives half as many bytes as characters; odd-length text never decodes |
| `Base16.DecodeEncode` | src/encode.rs:59 | decoding the hex text of any bytes gives those bytes back |
| `Base16.EncodeDecode` | src/decode.rs:25-26 | any text that decodes is the encoding of what it decodes to |
| `Base16.EncodeAppend` | src/encode.rs:59 | the hex text of a concatenation is the concatenation of the hex texts |
| `Base16.DecodeAppend` | src/decode.rs:21-30 | text cut at an even position decodes exactly when both pieces do, to the concatenation of their decodes |
| `FileTypes.FromByte` | bbqr/src/file_type.rs:13-22 | for every content type, the result names it exactly when the byte is its tag (`P`, `T`, `J`, `C`, `U`); every other byte gives `None` |
| `FileTypes.IsKnownFileType` | bbqr/src/file_type.rs:24-26 | true exactly when `from_byte` succeeds, which is exactly the bytes `PTJCU` |
| `FileTypes.FromByteInjective` | bbqr/src/file_type.rs:13-22 | two accepted bytes that map to the same content type are the same byte |
| `FileTypes.Display` | bbqr/src/file_type.rs:29-38 | the display name is non-empty and opens with the type's own header tag, which `from_byte` maps back to the type |
| `FileTypes.DisplayInjective` | bbqr/src/file_type.rs:29-38 | different content types have different display names |
| `Radix36.DigitValue` | src/header.rs:58-59 | digits are `0-9` and letters of either case, each worth less than 36; a lower-case letter is worth the same as its upper-case partner |
| `Radix36.DigitsValue` | src/header.rs:58-59 | a digit string has a value exactly when all its characters are digits, and that value is below 36 to the power of its length; the empty string is worth 0 and a single character is worth its digit value |
| `Radix36.LeadingDigit` | src/header.rs:58-59 | read most significant digit first: a leading digit c before ds is worth value(c) * 36^len(ds) plus the value of ds |
| `Radix36.ParseUsize` | src/header.rs:58-59 | the empty string never parses, and a parsed value fits in a 64-bit `usize`; a string parses only if, after an optional leading `+`, at least one character remains and every remaining character is a digit (so `-5` and `!5` fail); a one-character string parses to its digit value; two digits parse to first * 36 + second |
| `Radix36.TwelveDigitsFit` | src/header.rs:58-59 | one to twelve digits always parse, with or without a leading `+`, because 36^12 is below 2^64 |
| `Radix36.TwoCharsBounded` | src/header.rs:58-59 | two characters never parse above 36*36-1 = 1295 |
| `Radix36.CaseInsensitive` | src/header.rs:59 | strings whose digits have the same values, and the same leading `+` or none, parse the same |
| `Radix36.PlusIgnored` | src/header.rs:59 | a leading `+` before digits is accepted and ignored |
| `Headers.TryFromStr` | src/header.rs:32-72 | the checks run in order (empty, shorter than `HEADER_LENGTH`, marker, encoding tag, file-type tag, part count), each failure giving its own error (`InvalidHeaderParts` for the count) exactly when the earlier checks pass and it fails; success holds exactly when all pass, reads the fields from characters 2, 3 and 4..6, and never gives more than 1295 parts |
| `Headers.PrefixDecides` | src/header.rs:32-72 | for text long enough to be a header, only the first six characters decide the outcome |
| `Headers.ParsesZlibUnicodeEight` | src/header.rs:82-89 | `B$ZU08` followed by anything long enough parses to Zlib, Unicode text, 8 parts |
| `Headers.RejectsWrongMarker` | src/header.rs:92-98 | `B#888888` is rejected with `InvalidFixedHeader` (or as too short, were headers longer than 8) |
| `Headers.ParsesRendered` | src/split.rs:126 | a rendered header followed by enough text parses back to the header it was rendered from |
| `Headers.IndexParses` | src/split.rs:132 | a rendered index is two characters that parse back to it |
| `Qr.PlanVersion` | src/split.rs:154-155 | the planner's candidate for a version is at that version |
| `Slicing.MulIsProduct` | src/split.rs:129 | the offset of payload a is a*d |
| `Slicing.Payloads` | src/split.rs:128-138 | exactly n payloads, payload i being the text from i*d to min((i+1)*d, len) |
| `Slicing.PayloadsSpellPrefix` | src/split.rs:128-134 | the payloads, concatenated in index order, are the text up to min(n*d, len) |
| `Slicing.ListSpellsPrefix` | src/split.rs:128-134 | any list whose entry i is payload i spells the text up to min(length*d, len), where length is the list's length |
| `Slicing.PayloadsCover` | src/split.rs:128-134 | when n*d reaches the end of the text, the concatenated payloads are the whole text |
| `Slicing.PayloadsNonEmpty` | src/split.rs:129-134 | when (n-1)*d < len <= n*d, every payload is non-empty |
| `Slicing.NoPayloadEmpty` | src/split.rs:129-134 | when (n-1)*d < len <= n*d, no payload in the list is empty |
| `Slicing.LastPayload` | src/split.rs:130 | when the payloads cover the text, the last is everything from (n-1)*d on |
| `Slicing.PayloadWidth` | src/split.rs:129-130 | every payload but the last is exactly d characters wide |
| `Slicing.PayloadsOfPrefix` | src/split.rs:129-134 | the first k payloads depend only on the first k*d characters |
| `Split.Validate` | src/split.rs:198-216 | succeeds exactly for valid options; otherwise the first failing check, in the order max > `MAX_PARTS`, min > max, min version > max version, min < 1, gives its own error |
| `Split.Default` | src/split.rs:61-71 | Zlib over V01..V40, and it validates exactly when `MAX_PARTS` admits 1295 parts |
| `Split.Consider` | src/split.rs:171-180 | the best so far is only ever replaced by the admitted candidate, and only when that candidate is strictly smaller; a first admitted candidate is always taken, and nothing admitted leaves nothing |
| `Split.ConsiderStep` | src/split.rs:171-180 | one turn of the search keeps the best so far: a surviving candidate at the lowest version among its equals, strictly below every earlier survivor at a lower version and with no survivor below it |
| `Split.ScanVersions` | src/split.rs:153-181 | after the loop, no best means no candidate survived; otherwise the best survives, no survivor is smaller, and it is strictly smaller than every survivor at a lower version |
| `Split.FindBestVersion` | src/split.rs:149-195 | the only error is `CannotFit`, raised when no candidate survives or when the best one's parts cannot hold the text; on success the result is a surviving planner candidate within the version and split ranges and under `MAX_PARTS`, no survivor is smaller, ties go to the lowest version, and count*d reaches the end of the text |
| `Split.Parts` | src/split.rs:132-137 | exactly one part per payload, part i being the header, then index i rendered, then payload i |
| `Split.SplitQrs` | src/split.rs:108-123 | empty bytes give `Empty` before anything else; invalid options give the validation error; an encoder error is passed on; success needs valid options and a successful encoding, and then continues as `SplitEncoded` |
| `Split.SplitEncoded` | src/split.rs:123-147 | a search failure is passed on; otherwise the split succeeds exactly when the chosen plan's payloads cover the text (else the slicing panics), with the effective encoding, the chosen version, exactly `count` parts, and part i built from the header for (encoding, file type, count) and payload i |
| `Decode.FlatDecode` | src/decode.rs:21-30 | when no part decodes the result is empty bytes, not an error; one part contributes what it decodes to, or nothing |
| `Decode.FlatDecodeAppend` | src/decode.rs:21-30 | decoding part by part maps concatenation of part lists to concatenation of bytes |
| `Decode.FailedPartVanishes` | src/decode.rs:24-29 | a part that fails to decode contributes no bytes and raises no error |
| `Decode.DecodeAndJoinBase32Parts` | src/decode.rs:54-67 | never returns an error; a single part gives its own Base32 decode, or nothing when that fails; parts none of which decode give no bytes |
| `Decode.DecodeOrderedParts` | src/decode.rs:19-52 | the only error is `UnableToInflateZlib` for Zlib; Zlib succeeds exactly when inflating the joined Base32 bytes succeeds, and returns the inflated bytes; for Hex and Base32 a single part gives its own decode (nothing when that fails), and parts none of which decode give `Ok` of no bytes |
| `Decode.DecodeOrderedPartsUnpadded` | src/decode.rs:19-67 | the decoder with the unpadded Base32 decoder: Hex decodes as before, and the only error is still a failed inflate for Zlib |
| `Decode.DecodeOrderedPartsAppend` | src/decode.rs:19-32 | for Hex and Base32, decoding ps ++ qs succeeds and gives decode(ps) ++ decode(qs) |
| `Decode.EvenHexPartsDecodeAsWhole` | src/decode.rs:21-30 | when every part has even length, the joined text decodes exactly when every part does, to the same bytes as part-by-part decoding; this is why Hex is cut at a multiple of 2 |
| `Decode.OddCutLosesBytes` | src/decode.rs:21-30 | `AA` is one byte, but the parts `A`, `A` decode to nothing, without an error |
| `Join.FirstNonEmpty` | src/join.rs:120-123 | finds the first non-empty part, with nothing but empty parts before it, or reports that every part is empty |
| `Join.RestAgree` | src/join.rs:128-140 | true exactly when every later part is empty, or at least `HEADER_LENGTH` long with the first header's six characters |
| `Join.GetAndVerifyHeaders` | src/join.rs:114-143 | `Empty` exactly when every part is empty; the first non-empty part's parse error is passed on; when it parses but some part disagrees with it, `ConflictingHeaders`; success holds exactly when that part parses and every part agrees with it, and returns its header |
| `Join.HeadersAgreeAll` | src/join.rs:127-140 | every non-empty part of an accepted batch is long enough and parses to the batch's header |
| `Join.Place` | src/join.rs:73-98 | an empty part leaves the slots alone; an unparsable index panics; an index past the end gives `TooManyParts(n, index+1)`; a slot holding a different payload gives `DuplicatePartWrongContent(index)`; otherwise an empty payload gives `PartWithNoData(index)`; it succeeds exactly when the slot is free or holds the same payload and the payload is non-empty, writing only that slot |
| `Join.Fold` | src/join.rs:72-99 | the loop keeps the number of slots, and fails only with the placement errors |
| `Join.FoldAppend` | src/join.rs:72-99 | folding a ++ b folds a, then b from where a left off; an error in a ends the loop |
| `Join.FoldStopsAt` | src/join.rs:72-99 | when the parts before i place and part i fails, the loop returns part i's error |
| `Join.FoldFailsAt` | src/join.rs:72-99 | conversely, every error of the loop is the error of a part that fails after all the parts before it were placed |
| `Join.FoldSpec` | src/join.rs:72-99 | the loop succeeds exactly when all parts are admissible, agree with each other and fit the slots, and then writes each payload at its index and leaves every unclaimed slot as it was |
| `Join.Blank` | src/join.rs:70 | n empty slots |
| `Join.FirstMissing` | src/join.rs:102-106 | the lowest empty slot, or none when every slot is filled |
| `Join.JoinQrs` | src/join.rs:66-111 | a header error is passed on, and a success carries the batch's verified header; once the headers pass, the only errors are the placement errors, `MissingPart` and `DecodeError` (which part or index each names is in the lemmas below) |
| `Join.TryFromParts` | src/join.rs:55-62 | succeeds exactly when the join does, with its encoding, file type and data, and passes its error on otherwise |
| `Join.JoinSound` | src/join.rs:66-111 | an accepted batch has admissible, agreeing parts for every index, and its data is the decode of the payloads in index order |
| `Join.JoinComplete` | src/join.rs:66-111 | conversely, a batch with agreeing headers whose parts are admissible, agreeing and complete, and whose ordered payloads decode, is accepted with that data |
| `Join.HeadersOrderFree` | src/join.rs:114-143 | the header check depends only on the set of non-empty parts |
| `Join.JoinOrderFree` | src/join.rs:66-111 | an accepted join depends only on the set of non-empty parts: order, repeats and empty strings do not change it |
| `Join.RescanHarmless` | src/join.rs:86-98 | inserting a second copy of any part anywhere leaves an accepted result unchanged |
| `Join.ConflictingDuplicateRejected` | src/join.rs:86-91 | two parts with the same index and different payloads make the join fail |
| `Join.ZeroPartsRejected` | src/join.rs:79-84 | a header announcing zero parts rejects the batch |
| `Join.DuplicateBeforeEmpty` | src/join.rs:89-95 | an empty payload aimed at a filled slot is reported as `DuplicatePartWrongContent`, not `PartWithNoData` |
| `Join.PlaceIdempotent` | src/join.rs:86-98 | placing the same part twice is the same as placing it once |
| `Join.MissingIsLowest` | src/join.rs:101-106 | `MissingPart(k)` names an index below the part count that no part carries, and every lower index is carried |
| `Join.MissingReported` | src/join.rs:101-106 | conversely, with agreeing headers and admissible, agreeing parts, the lowest index below the part count that no part carries is reported as `MissingPart` |
| `Join.PlacementFailureReported` | src/join.rs:72-99 | once the headers pass, the first part that fails to place decides the join's error |
| `Join.PlacementFailureLocated` | src/join.rs:72-99 | conversely, every placement error of the join comes from such a part, after the headers passed |
| `Join.DecodeFailureReported` | src/join.rs:108 | a batch that passes every other check but whose ordered payloads fail to decode reports `DecodeError` of the decoder's error |
| `Join.DecodeFailureLocated` | src/join.rs:66-111 | conversely, `DecodeError(e)` is reported only for admissible, agreeing, complete parts whose ordered payloads decode to `Err(e)` |
| `Join.EmptyBatch` | src/join.rs:115-123 | a batch of only empty strings (or none) is `Empty` |
| `Join.VerifiesRepeatedHeader` | src/join.rs:152-169 | empty strings around three copies of `B$ZU0801` give Zlib, Unicode text, 8 parts |
| `Join.CatchesConflictingHeaders` | src/join.rs:185-195 | `B$ZU0902` among `B$ZU08..` parts gives `ConflictingHeaders` |
| `LegacyEncodings.FromByte` | bbqr/src/encoding.rs:8-14 | only `H` and `Z` are accepted, each naming its own encoding |
| `LegacyEncodings.IsKnownEncoding` | bbqr/src/encoding.rs:16-18 | true exactly when `from_byte` succeeds, which is exactly the two bytes `H`, `Z` |
| `LegacyEncodings.AgreesWithModern` | bbqr/src/encoding.rs:8-14 | the legacy table is the newer one without Base32: `2` is rejected and the other tags name the same encodings |
| `LegacyHeaders.TryFromStr` | bbqr/src/header.rs:31-72 | the same check order as the newer parser, with a fixed six-character minimum: empty, shorter than 6, marker, encoding tag, file-type tag, part count, each failure giving its own error exactly when the earlier checks pass and it fails; success holds exactly when all pass and reads the same fields |
| `LegacyHeaders.PrefixDecides` | bbqr/src/header.rs:31-72 | for text of at least six characters, only the first six decide the outcome |
| `LegacyHeaders.AcceptsSixCharacters` | bbqr/src/header.rs:39-41 | six characters, `B$ZU08`, already make a header |
| `LegacyHeaders.RejectsBase32` | bbqr/src/header.rs:48-50 | the Base32 tag `2` is an invalid encoding here |
| `LegacyJoin.RestAgree` | bbqr/src/join.rs:41-53 | true exactly when every later part is empty or at least six characters long with the first header's six characters |
| `LegacyJoin.VerifyHeader` | bbqr/src/join.rs:27-56 | `Empty` exactly when every part is empty; parse errors of the first non-empty part are passed on; when it parses but some part disagrees with it, `ConflictingHeaders`; success holds exactly when it parses and every part agrees with it |
| `LegacyJoin.VerifiesRepeatedHeader` | bbqr/src/join.rs:64-78 | the unit test: Zlib, Unicode text, 8 parts |
| `LegacyJoin.CatchesEmpty` | bbqr/src/join.rs:80-87 | five empty strings give `Empty` |
| `LegacyJoin.CatchesConflictingHeaders` | bbqr/src/join.rs:89-96 | a different part count in the middle gives `ConflictingHeaders` |
| `LegacyCompat.ParsersAgree` | bbqr/src/header.rs:31-72 | on text long enough for the newer parser, the legacy parser accepts exactly the newer parser's non-Base32 headers and reads the same fields |
| `LegacyCompat.OnlyLegacyAcceptsSix` | bbqr/src/header.rs:39-41 | `B$ZU08` is a header to the legacy parser but too short (`InvalidHeaderSize(6)`) to the newer one |
| `LegacyCompat.HeaderChecksAgree` | bbqr/src/join.rs:27-56 | a batch the newer header check accepts with a non-Base32 encoding passes the legacy check with the same header |
| `Loopback.HexIsBlockCodec` | src/encode.rs:58-61 | upper-case hex is a lossless block codec of one byte to two characters: it inverts on every input, measures 2n and splits at any byte boundary |
| `Loopback.BlockDecode` | src/split.rs:128-138 | a block codec's text cut into payloads of a width that is a multiple of the block size decodes, part by part, back to the input, when the input is a whole number of blocks or the codec is lossless |
| `Loopback.EncodedDecodes` | src/decode.rs:19-64 | the payloads of an encoding cut at a multiple of `split_mod` decode back to the encoder's input: always for Hex, and for Base32 and Zlib under the codec hypotheses when the Base32 text carries a non-zero whole number of 5-byte blocks |
| `Loopback.UnpaddedEncodedDecodes` | src/decode.rs:54-64 | with the unpadded decoder, the payloads of any encoding cut at a multiple of `split_mod` decode back to the input, whatever its length |
| `Loopback.Base32TailLost` | src/decode.rs:54-64 | with the padded decoder, the payloads of the Base32 text of an input that is not a whole number of 5-byte blocks decode without error to a proper prefix of the input, made of whole blocks |
| `Loopback.PartShape` | src/split.rs:135 | part i opens with the rendered header and carries index i and payload i |
| `Loopback.OpensWithHeader` | src/header.rs:32-72 | text of at least eight characters opening with a rendered header parses back to that header |
| `Loopback.PartsJoin` | src/join.rs:66-111 | the parts laid out around non-empty payloads join to whatever the payloads decode to, with the header's encoding and content type |
| `Loopback.SplitShape` | src/split.rs:108-147 | a successful split encoded the data, chose a planner candidate with 1 to `MAX_PARTS` parts that covers the text, and laid out the payloads it cuts |
| `Loopback.PlannedFits` | src/split.rs:190-192 | under the planner hypothesis, a chosen plan leaves text for its last part and cuts at a multiple of `split_mod` |
| `Loopback.SplitHeadersParse` | src/split.rs:248-254 | every part of a split parses to the split's encoding, the given content type and the number of parts |
| `Loopback.JoinedHeader` | src/join.rs:114-143 | parts all opening with a rendered header pass the header check with that header |
| `Loopback.SplitThenJoin` | tests/split_and_join_loop_back_test.rs:47-59 | under the planner and constants hypotheses, joining the parts of a split whose text is `Decodable` returns the original bytes, the split's encoding and the given content type |
| `Loopback.HexSplitThenJoin` | tests/split_and_join_loop_back_test.rs:47-59 | with no hypothesis on the codecs, joining the parts of a Hex split returns the original bytes, Hex and the given content type |
| `Loopback.PartialBlockDropped` | src/decode.rs:54-64 | as written, a Base32 split of an input whose length is not a multiple of 5 joins without an error to a strictly shorter prefix of the input |

## Left out

- QR rendering (`generate_qr_codes`, src/split.rs:82-105) is left out. It calls the fast_qr library.
- The capacity table is left out, and so is `version_to_chars` (src/qr.rs:14-19). Test expectations that depend on the table are out of reach for the same reason: version V39 with 2 parts, and the 1062 threshold.
- The planner `number_of_qrs_needed` and the `QrsNeeded` ordering are not part of this model. They are uninterpreted. The round trip needs the hypothesis `PlannerFits`: every plan reaches its last part and cuts at a multiple of `split_mod`.
- The Base32 codecs and raw DEFLATE are foreign calls. They are uninterpreted. The round trip needs `InflateInvertsDeflate` and `Base32RoundTrips`, under which the padded decoder reads back the unpadded text of a whole number of 5-byte blocks. Nothing is assumed about the padded decoder on the text of a partial block, except in `PaddedRejectsPartialBlocks`, which only the as-written finding uses.
- `Header::to_string` and `int_to_padded_base_36` are not part of this model. They are uninterpreted, constrained only to render text the parser reads back.
- The values of `HEADER_LENGTH` and `MAX_PARTS` are not part of this model. The round trip assumes `HEADER_LENGTH` = 8 and `MAX_PARTS` <= 1295 (`ConstantsAsPublished`).
- src/file_type.rs is not part of this model. Both crates use the table of bbqr/src/file_type.rs.
- The continuous joiner declared in src/lib.rs is not part of this model.
- The legacy `decode_data` (bbqr/src/join.rs:17-23) is a placeholder that always returns nothing, so it is not modelled.
- Error message texts are not modelled, except the part-count message of the header parsers. The per-part decode errors carry the part's index but not the codec's error, since they are never returned.
- The `Display` implementation of `thiserror` is not modelled.
- Panics from slicing a string at a position that is not a character boundary are not modelled. Text is ASCII.
- The data-file tests (tests/join_test.rs, tests/split_test.rs) are not modelled. Neither are the random-data loops of the round-trip tests.
- Split.FindBestVersion: the product `data_per_qr * count` is unbounded here. A `usize` overflow of it is not modelled.
- Split.SplitEncoded: the offsets `i * data_per_qr` are unbounded here. A `usize` overflow of them is not modelled.
- Split.FindBestVersion: the `expect` after the `is_none` check (src/split.rs:187) cannot fail, and is not modelled as an error.
- Loopback.SplitThenJoin: it holds only under the planner and constants hypotheses, and for Base32 and Zlib only under the codec hypotheses and when the Base32 text carries a non-zero whole number of 5-byte blocks (`Decodable`). Other Base32 and Zlib inputs are not promised a round trip, since the padded decoder rejects their last part (`PartialBlockDropped`).
- Loopback.EncodedDecodes: the same restriction to `Decodable` text.
- Loopback.PlannerFits: it constrains the planner only on non-empty text.

## Findings

| source | as written | input that shows it | evidently intended | confidence | as-written member | corrected member |
|---|---|---|---|---|---|---|
| src/decode.rs:59-63 | the parts are decoded with the padded `BASE32` although src/encode.rs:63 writes unpadded `BASE32_NOPAD` text, and `flat_map` drops a part that fails to decode | a Base32 split of 1061 bytes: the text is 1698 characters, not a multiple of 8, so the last part is rejected and the join returns fewer bytes without an error | decode with the unpadded decoder (or report the failed part), so that every split joins back to its input | not executed; rests on the padded decoder rejecting text whose length is not a multiple of 8 | `Loopback.PartialBlockDropped` | `Loopback.UnpaddedEncodedDecodes` |

=== FILE: base16.dfy ===
/** Upper-case base 16 (section 8 of RFC 4648), as the `HEXUPPER` codec of the
    `data_encoding` crate encodes and decodes it: two digits per byte, high
    nibble first, only `0-9A-F` accepted when decoding. */
module Base16 {
  import opened Wrappers

  /** The upper-case digit of a nibble. */
  function Digit(n: nat): (c: char)
    requires n < 16
  {
    if n < 10 then ('0' as nat + n) as char else ('A' as nat + n - 10) as char
  }

  /** The value of an upper-case hex digit; lower case is rejected. */
  function DigitValue(c: char): (r: Option<nat>)
    ensures r.Some? ==> r.value < 16 && Digit(r.value) == c
    ensures forall n :: 0 <= n < 16 && Digit(n) == c ==> r == Some(n)
  {
    if '0' <= c <= '9' then Some(c as nat - '0' as nat)
    else if 'A' <= c <= 'F' then Some(c as nat - 'A' as nat + 10)
    else None
  }

  /** `HEXUPPER.encode`. */
  function Encode(b: seq<byte>): (t: string)
    ensures |t| == 2 * |b|
  {
    if |b| == 0 then ""
    else [Digit(b[0] / 16), Digit(b[0] % 16)] + Encode(b[1..])
  }

  /** `HEXUPPER.decode`: `None` for an odd length or a character outside `0-9A-F`. */
  function Decode(t: string): (r: Option<seq<byte>>)
    ensures r.Some? ==> 2 * |r.value| == |t|
    ensures |t| % 2 == 1 ==> r.None?
  {
    if |t| == 0 then Some([])
    else if |t| == 1 then None
    else
      var hi := DigitValue(t[0]);
      var lo := DigitValue(t[1]);
      var rest := Decode(t[2..]);
      if hi.None? || lo.None? || rest.None? then None
      else Some([hi.value * 16 + lo.value] + rest.value)
  }

  /** Decoding undoes encoding. */
  lemma {:induction false} DecodeEncode(b: seq<byte>)
    ensures Decode(Encode(b)) == Some(b)
  {
    if |b| > 0 {
      var t := Encode(b);
      assert t[2..] == Encode(b[1..]);
      DecodeEncode(b[1..]);
      assert DigitValue(t[0]) == Some(b[0] / 16);
      assert DigitValue(t[1]) == Some(b[0] % 16);
      assert [b[0]] + b[1..] == b;
    }
  }

  /** Encoding is canonical: any text that decodes is the encoding of what it
      decodes to, so only upper-case digits ever decode. */
  lemma {:induction false} EncodeDecode(t: string)
    requires Decode(t).Some?
    ensures Encode(Decode(t).value) == t
  {
    if |t| > 0 {
      var b := Decode(t).value;
      EncodeDecode(t[2..]);
      assert b[1..] == Decode(t[2..]).value;
      assert Encode(b) == [t[0], t[1]] + t[2..];
    }
  }

  /** Encoding maps concatenation to concatenation. */
  lemma {:induction false} EncodeAppend(b1: seq<byte>, b2: seq<byte>)
    ensures Encode(b1 + b2) == Encode(b1) + Encode(b2)
  {
    if |b1| > 0 {
      assert (b1 + b2)[1..] == b1[1..] + b2;
      EncodeAppend(b1[1..], b2);
      assert (b1 + b2)[0] == b1[0];
    } else {
      assert b1 + b2 == b2;
    }
  }

  /** Text can be decoded in even-length pieces: decoding a concatenation whose
      first piece has even length succeeds exactly when both pieces decode, and
      gives the concatenation of the two results. */
  lemma {:induction false} DecodeAppend(t1: string, t2: string)
    requires |t1| % 2 == 0
    ensures Decode(t1 + t2).Some? <==> Decode(t1).Some? && Decode(t2).Some?
    ensures Decode(t1 + t2).Some? ==> Decode(t1 + t2).value == Decode(t1).value + Decode(t2).value
  {
    if |t1| > 0 {
      var t := t1 + t2;
      assert t[2..] == t1[2..] + t2;
      assert t[0] == t1[0] && t[1] == t1[1];
      DecodeAppend(t1[2..], t2);
      if Decode(t).Some? {
        var x: seq<byte> := [DigitValue(t1[0]).value * 16 + DigitValue(t1[1]).value];
        var a, b := Decode(t1[2..]).value, Decode(t2).value;
        assert Decode(t).value == x + (a + b);
        assert Decode(t1).value == x + a;
        AppendAssociates(x, a, b);
      }
    } else {
      assert t1 + t2 == t2;
    }
  }

  lemma AppendAssociates(x: seq<byte>, a: seq<byte>, b: seq<byte>)
    ensures x + (a + b) == (x + a) + b
  {
  }
}

=== FILE: codecs.dfy ===
/** The foreign codecs the encoder and decoder call. Their code is not part of
    this model, so each is an uninterpreted constant of function type: the
    model relies on nothing about them except their signatures. What the
    split-then-join round trip needs from them is stated as explicit
    hypotheses in module Loopback. */
module Codecs {
  import opened Wrappers

  /** The result of a compressor or decompressor call: bytes, or the text of
      the I/O error the stream reported. */
  datatype Outcome = Done(bytes: seq<byte>) | Failed(message: string)

  /** `BASE32_NOPAD.encode` of the data_encoding crate: base 32 of section 6
      of RFC 4648, without `=` padding. */
  const Base32NoPadEncode: seq<byte> -> string

  /** `BASE32.decode` of the data_encoding crate: the PADDED variant, which is
      a different codec from the encoder above. */
  const Base32Decode: string -> Option<seq<byte>>

  /** `BASE32_NOPAD.decode`: the unpadded decoder, the encoder's own partner.
      The joiner does not call it; it is the decoder of the corrected join,
      `Decode.DecodeOrderedPartsUnpadded`. */
  const Base32NoPadDecode: string -> Option<seq<byte>>

  /** Raw DEFLATE (RFC 1951) at best compression with a 10-bit window, as
      flate2's `Compress::new_with_window_bits(Compression::best(), false, 10)`
      behind a `ZlibEncoder`. */
  const Deflate: seq<byte> -> Outcome

  /** Raw inflate with a 10-bit window, as flate2's
      `Decompress::new_with_window_bits(false, 10)` read to the end. */
  const Inflate: seq<byte> -> Outcome
}

=== FILE: consts.dfy ===
/** The crate's constants module is not part of this model: its two constants
    are left uninterpreted, with only the bound the shown code relies on. */
module Consts {

  /** At least the 6-character header plus the 2-character part index: once
      the headers have been checked, the joiner reads characters 6..8 of every
      non-empty part without a further length test. */
  type HeaderWidth = n: nat | 8 <= n witness 8

  /** `HEADER_LENGTH`: the shortest text accepted as a part. */
  const HeaderLength: HeaderWidth

  /** `MAX_PARTS`: the hard ceiling on the number of parts. */
  const MaxParts: nat
}

=== FILE: decode.dfy ===
/** The decoder of src/decode.rs. Each part is decoded on its own and the
    results are concatenated in order; `flat_map` over the per-part `Result`s
    silently drops every part that fails to decode, so the per-part error
    variants are never returned. */
module Decode {
  import opened Wrappers
  import opened Encodings
  import Base16
  import Codecs
  import Slicing

  datatype DecodeError =
    | UnableToDecodeHex(index: nat)
    | UnableToDecodeBase32(index: nat)
    | UnableToInflateZlib(message: string)

  /** The bytes of a successful decode, or nothing for a failed one. */
  function OrNothing(o: Option<seq<byte>>): seq<byte>
  {
    match o
    case Some(b) => b
    case None => []
  }

  /** `parts.iter().flat_map(decode).flatten()`: the in-order concatenation
      of the per-part decodes that succeed. */
  function FlatDecode(decode: string -> Option<seq<byte>>, parts: seq<string>): (r: seq<byte>)
    ensures NoneDecodes(decode, parts) ==> r == []
    ensures |parts| == 1 ==> r == OrNothing(decode(parts[0]))
  {
    if |parts| == 0 then []
    else FlatDecode(decode, parts[..|parts| - 1]) + OrNothing(decode(parts[|parts| - 1]))
  }

  /** No part decodes on its own. */
  predicate NoneDecodes(decode: string -> Option<seq<byte>>, parts: seq<string>)
  {
    forall i :: 0 <= i < |parts| ==> decode(parts[i]).None?
  }

  /** Decoding a list of parts is decoding each half and concatenating. */
  lemma {:induction false} FlatDecodeAppend(decode: string -> Option<seq<byte>>, ps: seq<string>, qs: seq<string>)
    ensures FlatDecode(decode, ps + qs) == FlatDecode(decode, ps) + FlatDecode(decode, qs)
  {
    if |qs| == 0 {
      assert ps + qs == ps;
    } else {
      var last := qs[|qs| - 1];
      assert (ps + qs)[..|ps + qs| - 1] == ps + qs[..|qs| - 1];
      FlatDecodeAppend(decode, ps, qs[..|qs| - 1]);
    }
  }

  /** A part that fails to decode contributes no bytes and raises no error. */
  lemma FailedPartVanishes(decode: string -> Option<seq<byte>>, ps: seq<string>, bad: string, qs: seq<string>)
    requires decode(bad).None?
    ensures FlatDecode(decode, ps + [bad] + qs) == FlatDecode(decode, ps) + FlatDecode(decode, qs)
  {
    FlatDecodeAppend(decode, ps + [bad], qs);
    assert (ps + [bad])[..|ps + [bad]| - 1] == ps;
  }

  /** `decode_and_join_base32_parts`: never an error. */
  function DecodeAndJoinBase32Parts(parts: seq<string>): (r: Result<seq<byte>, DecodeError>)
    ensures r.Ok?
    ensures |parts| == 1 ==> r == Ok(OrNothing(Codecs.Base32Decode(parts[0])))
    ensures NoneDecodes(Codecs.Base32Decode, parts) ==> r == Ok([])
  {
    Ok(FlatDecode(Codecs.Base32Decode, parts))
  }

  /** `decode_ordered_parts`. Hex and Base32 always succeed; Zlib inflates the
      joined Base32 bytes and fails only when inflating fails. */
  function DecodeOrderedParts(parts: seq<string>, encoding: Encoding): (r: Result<seq<byte>, DecodeError>)
    ensures r.Err? ==> encoding == Zlib && r.error.UnableToInflateZlib?
    ensures encoding == Zlib ==>
      (r.Ok? <==> Codecs.Inflate(FlatDecode(Codecs.Base32Decode, parts)).Done?)
    ensures encoding == Zlib && r.Ok? ==>
      r.value == Codecs.Inflate(DecodeAndJoinBase32Parts(parts).value).bytes
    ensures encoding == Hex && |parts| == 1 ==> r == Ok(OrNothing(Base16.Decode(parts[0])))
    ensures encoding == Base32 && |parts| == 1 ==> r == Ok(OrNothing(Codecs.Base32Decode(parts[0])))
    ensures encoding == Hex && NoneDecodes(Base16.Decode, parts) ==> r == Ok([])
    ensures encoding == Base32 && NoneDecodes(Codecs.Base32Decode, parts) ==> r == Ok([])
  {
    match encoding
    case Hex => Ok(FlatDecode(Base16.Decode, parts))
    case Base32 => DecodeAndJoinBase32Parts(parts)
    case Zlib =>
      var bytes := DecodeAndJoinBase32Parts(parts).value;
      match Codecs.Inflate(bytes)
      case Done(inflated) => Ok(inflated)
      case Failed(message) => Err(UnableToInflateZlib(message))
  }

  /** The decoder as the unpadded encoder evidently calls for: Base32 text,
      plain or compressed, read back with the unpadded decoder. Hex is
      decoded as before, and failures are still those of inflating. */
  function DecodeOrderedPartsUnpadded(parts: seq<string>, encoding: Encoding): (r: Result<seq<byte>, DecodeError>)
    ensures encoding == Hex ==> r == DecodeOrderedParts(parts, Hex)
    ensures r.Err? ==> encoding == Zlib && r.error.UnableToInflateZlib?
    ensures encoding == Zlib ==>
      (r.Ok? <==> Codecs.Inflate(FlatDecode(Codecs.Base32NoPadDecode, parts)).Done?)
  {
    match encoding
    case Hex => DecodeOrderedParts(parts, Hex)
    case Base32 => Ok(FlatDecode(Codecs.Base32NoPadDecode, parts))
    case Zlib =>
      match Codecs.Inflate(FlatDecode(Codecs.Base32NoPadDecode, parts))
      case Done(inflated) => Ok(inflated)
      case Failed(message) => Err(UnableToInflateZlib(message))
  }

  /** For Hex and Base32 the decoder is a homomorphism: decoding a
      concatenation of part lists concatenates the decodes. */
  lemma DecodeOrderedPartsAppend(ps: seq<string>, qs: seq<string>, encoding: Encoding)
    requires encoding != Zlib
    ensures DecodeOrderedParts(ps + qs, encoding).Ok?
    ensures DecodeOrderedParts(ps + qs, encoding).value ==
      DecodeOrderedParts(ps, encoding).value + DecodeOrderedParts(qs, encoding).value
  {
    if encoding == Hex {
      FlatDecodeAppend(Base16.Decode, ps, qs);
    } else {
      FlatDecodeAppend(Codecs.Base32Decode, ps, qs);
    }
  }

  /** Every part decodes on its own. */
  predicate AllDecode(decode: string -> Option<seq<byte>>, parts: seq<string>)
  {
    forall i :: 0 <= i < |parts| ==> decode(parts[i]).Some?
  }

  lemma AllDecodeSplit(decode: string -> Option<seq<byte>>, parts: seq<string>)
    requires |parts| > 0
    ensures AllDecode(decode, parts) <==>
      AllDecode(decode, parts[..|parts| - 1]) && decode(parts[|parts| - 1]).Some?
  {
    var front := parts[..|parts| - 1];
    assert forall i :: 0 <= i < |front| ==> front[i] == parts[i];
  }

  /** Why Hex parts are cut at even lengths: when every part has even length,
      the whole text decodes exactly when every part does, and decoding part
      by part gives the same bytes as decoding the whole. */
  lemma {:induction false} EvenHexPartsDecodeAsWhole(parts: seq<string>)
    requires forall i :: 0 <= i < |parts| ==> |parts[i]| % 2 == 0
    ensures Base16.Decode(Slicing.Concat(parts)).Some? <==> AllDecode(Base16.Decode, parts)
    ensures Base16.Decode(Slicing.Concat(parts)).Some? ==>
      Base16.Decode(Slicing.Concat(parts)).value == FlatDecode(Base16.Decode, parts)
  {
    if |parts| > 0 {
      var front := parts[..|parts| - 1];
      var last := parts[|parts| - 1];
      assert forall i :: 0 <= i < |front| ==> |front[i]| % 2 == 0 by {
        assert forall i :: 0 <= i < |front| ==> front[i] == parts[i];
      }
      EvenHexPartsDecodeAsWhole(front);
      ConcatEven(front);
      assert Slicing.Concat(parts) == Slicing.Concat(front) + last;
      Base16.DecodeAppend(Slicing.Concat(front), last);
      AllDecodeSplit(Base16.Decode, parts);
    }
  }

  lemma {:induction false} ConcatEven(parts: seq<string>)
    requires forall i :: 0 <= i < |parts| ==> |parts[i]| % 2 == 0
    ensures |Slicing.Concat(parts)| % 2 == 0
  {
    if |parts| > 0 {
      ConcatEven(parts[..|parts| - 1]);
    }
  }

  /** Cutting Hex text at an odd position loses data silently: "AA" is one
      byte, but "A" and "A" each fail to decode and are dropped. */
  lemma OddCutLosesBytes()
    ensures Base16.Decode("AA") == Some([170])
    ensures DecodeOrderedParts(["A", "A"], Hex) == Ok([])
  {
    assert Base16.DigitValue('A') == Some(10);
    assert Base16.Decode("") == Some([]);
    assert "AA"[0] == 'A' && "AA"[1] == 'A' && "AA"[2..] == "";
    var aa: seq<byte> := [170];
    assert Base16.Decode("AA") == Some([10 * 16 + 10] + []);
    assert [10 * 16 + 10] + [] == aa;
    assert Base16.Decode("A") == None;
    assert ["A", "A"][..1] == ["A"];
    assert ["A"][..0] == [];
    assert "AA"[2..] == [];
  }
}

=== FILE: encode.dfy ===
/** The encoder of src/encode.rs: its tag table, the alignment modulus of each
    encoding, and the choice of text encoding with the Zlib-to-Base32
    fallback. */
module Encode {
  import opened Wrappers
  import opened Encodings
  import Base16
  import Codecs

  /** `Encoding::from_byte` as src/encode.rs declares it again. */
  function FromByte(c: char): (r: Option<Encoding>)
    ensures forall e :: r == Some(e) <==> c == Tag(e)
  {
    match c
    case 'H' => Some(Hex)
    case '2' => Some(Base32)
    case 'Z' => Some(Zlib)
    case _ => None
  }

  /** `Encoding::is_known_encoding` of src/encode.rs. */
  function IsKnownEncoding(c: char): (r: bool)
    ensures r <==> c in "H2Z"
  {
    FromByte(c).Some?
  }

  /** The two declarations of the tag table agree on every byte. */
  lemma TablesAgree(c: char)
    ensures FromByte(c) == Encodings.FromByte(c)
    ensures IsKnownEncoding(c) == Encodings.IsKnownEncoding(c)
  {
  }

  /** `Encoding::split_mod`: the number of encoded characters that stand for a
      whole number of bytes, and so may end a part that is not the last. Hex
      text is always a whole number of such units; Base32 text, plain or
      compressed, is cut at its 8-character quantum of 5 bytes (section 6 of
      RFC 4648). */
  function SplitMod(e: Encoding): (m: nat)
    ensures m > 0
    ensures e == Hex ==> forall b :: |Base16.Encode(b)| % m == 0
    ensures e != Hex ==> m == 8
  {
    match e
    case Hex => 2
    case Base32 => 8
    case Zlib => 8
  }

  datatype EncodeError = Empty | CompressionError(message: string)

  /** Encoded text together with the encoding actually used to produce it. */
  datatype Encoded = Encoded(encoding: Encoding, data: string)

  /** `a < b` on `Vec<u8>`: lexicographic order, a proper prefix being smaller.
      Length does not decide it: a longer vector can be the smaller one. */
  function LexLess(a: seq<byte>, b: seq<byte>): bool
  {
    if |b| == 0 then false
    else if |a| == 0 then true
    else if a[0] != b[0] then a[0] < b[0]
    else LexLess(a[1..], b[1..])
  }

  /** The textbook lexicographic order: a is a proper prefix of b, or at the
      first position where they differ a holds the smaller byte. */
  predicate LexBelow(a: seq<byte>, b: seq<byte>)
  {
    || (|a| < |b| && a == b[..|a|])
    || exists i :: 0 <= i < |a| && i < |b| && a[..i] == b[..i] && a[i] < b[i]
  }

  /** The recursive comparison is the textbook order. */
  lemma {:induction false} LexLessMeans(a: seq<byte>, b: seq<byte>)
    ensures LexLess(a, b) <==> LexBelow(a, b)
  {
    if |b| == 0 {
    } else if |a| == 0 {
      assert a == b[..0];
    } else if a[0] != b[0] {
      if a[0] < b[0] {
        assert a[..0] == b[..0];
      }
      assert forall i :: 0 < i <= |a| && i <= |b| ==> a[..i][0] == a[0] && b[..i][0] == b[0];
    } else {
      var a', b' := a[1..], b[1..];
      LexLessMeans(a', b');
      ShiftBelow(a, b);
    }
  }

  /** Dropping an equal first byte keeps the textbook order. */
  lemma ShiftBelow(a: seq<byte>, b: seq<byte>)
    requires |a| > 0 && |b| > 0 && a[0] == b[0]
    ensures LexBelow(a, b) <==> LexBelow(a[1..], b[1..])
  {
    var a', b' := a[1..], b[1..];
    assert a == [a[0]] + a' && b == [b[0]] + b';
    if |a| < |b| && a == b[..|a|] {
      assert a' == b'[..|a'|];
    }
    if |a'| < |b'| && a' == b'[..|a'|] {
      assert b[..|a|] == [b[0]] + b'[..|a'|];
    }
    if exists i :: 0 <= i < |a| && i < |b| && a[..i] == b[..i] && a[i] < b[i] {
      var i :| 0 <= i < |a| && i < |b| && a[..i] == b[..i] && a[i] < b[i];
      assert i > 0;
      assert a'[..i - 1] == a[..i][1..] == b[..i][1..] == b'[..i - 1];
      assert a'[i - 1] < b'[i - 1];
    }
    if exists j :: 0 <= j < |a'| && j < |b'| && a'[..j] == b'[..j] && a'[j] < b'[j] {
      var j :| 0 <= j < |a'| && j < |b'| && a'[..j] == b'[..j] && a'[j] < b'[j];
      assert a[..j + 1] == [a[0]] + a'[..j] && b[..j + 1] == [b[0]] + b'[..j];
      assert a[j + 1] < b[j + 1];
    }
  }

  lemma {:induction false} LexLessIrreflexive(a: seq<byte>)
    ensures !LexLess(a, a)
  {
    if |a| > 0 {
      LexLessIrreflexive(a[1..]);
    }
  }

  lemma {:induction false} LexLessTransitive(a: seq<byte>, b: seq<byte>, c: seq<byte>)
    requires LexLess(a, b) && LexLess(b, c)
    ensures LexLess(a, c)
  {
    if |a| > 0 && a[0] == b[0] && b[0] == c[0] {
      LexLessTransitive(a[1..], b[1..], c[1..]);
    }
  }

  lemma {:induction false} LexLessTotal(a: seq<byte>, b: seq<byte>)
    requires a != b
    ensures LexLess(a, b) || LexLess(b, a)
  {
    if |a| > 0 && |b| > 0 && a[0] == b[0] {
      assert a == [a[0]] + a[1..] && b == [b[0]] + b[1..];
      LexLessTotal(a[1..], b[1..]);
    }
  }

  /** Length and lexicographic order disagree in both directions: a shorter
      vector can be the greater one and a longer vector the smaller one. */
  lemma LexLessIsNotShorter()
    ensures !LexLess([1], [0, 0])
    ensures LexLess([0, 0, 0], [1])
  {
  }

  /** `Encoded::try_new_from_data`. Hex and Base32 requests are honoured; a
      Zlib request keeps Zlib only when the compressed bytes compare below the
      input, and otherwise falls back to Base32 of the input. */
  function TryNewFromData(data: seq<byte>, encoding: Encoding): (r: Result<Encoded, EncodeError>)
    ensures |data| == 0 <==> r == Err(EncodeError.Empty)
    ensures r.Err? && |data| > 0 ==>
      encoding == Zlib && Codecs.Deflate(data).Failed?
      && r.error == CompressionError(Codecs.Deflate(data).message)
    ensures r.Ok? ==> r.value.encoding == encoding || (encoding == Zlib && r.value.encoding == Base32)
    ensures r.Ok? && r.value.encoding == Hex ==> r.value.data == Base16.Encode(data)
    ensures r.Ok? && r.value.encoding == Base32 ==> r.value.data == Codecs.Base32NoPadEncode(data)
    ensures r.Ok? && r.value.encoding == Zlib ==>
      Codecs.Deflate(data).Done? && LexLess(Codecs.Deflate(data).bytes, data)
      && r.value.data == Codecs.Base32NoPadEncode(Codecs.Deflate(data).bytes)
    ensures encoding == Zlib && |data| > 0 && Codecs.Deflate(data).Done? ==>
      r.Ok? && (r.value.encoding == Zlib <==> LexLess(Codecs.Deflate(data).bytes, data))
  {
    if |data| == 0 then Err(EncodeError.Empty)
    else
      match encoding
      case Hex => Ok(Encoded(Hex, Base16.Encode(data)))
      case Base32 => Ok(Encoded(Base32, Codecs.Base32NoPadEncode(data)))
      case Zlib =>
        match Codecs.Deflate(data)
        case Failed(message) => Err(CompressionError(message))
        case Done(compressed) =>
          if LexLess(compressed, data) then
            Ok(Encoded(Zlib, Codecs.Base32NoPadEncode(compressed)))
          else
            Ok(Encoded(Base32, Codecs.Base32NoPadEncode(data)))
  }

  /** Hex text is the upper-case base 16 of the input, two characters a byte,
      and decodes back to it. */
  lemma HexEncodedDecodes(data: seq<byte>)
    requires |data| > 0
    ensures TryNewFromData(data, Hex) == Ok(Encoded(Hex, Base16.Encode(data)))
    ensures |TryNewFromData(data, Hex).value.data| == 2 * |data|
    ensures Base16.Decode(TryNewFromData(data, Hex).value.data) == Some(data)
  {
    Base16.DecodeEncode(data);
  }
}

=== FILE: encoding.dfy ===
/** The encoding tag table (src/encoding.rs). The same three-way enum is
    declared again in src/encode.rs; here it is declared once and both tag
    tables are modelled against it. */
module Encodings {
  import opened Wrappers

  datatype Encoding = Hex | Base32 | Zlib

  /** The single character that names each encoding in a header. */
  function Tag(e: Encoding): char
  {
    match e
    case Hex => 'H'
    case Base32 => '2'
    case Zlib => 'Z'
  }

  /** `Encoding::from_byte` of src/encoding.rs: exactly the three tags are
      accepted, each naming its own encoding. */
  function FromByte(c: char): (r: Option<Encoding>)
    ensures forall e :: r == Some(e) <==> c == Tag(e)
  {
    match c
    case 'H' => Some(Hex)
    case '2' => Some(Base32)
    case 'Z' => Some(Zlib)
    case _ => None
  }

  /** `Encoding::is_known_encoding` of src/encoding.rs. */
  function IsKnownEncoding(c: char): (r: bool)
    ensures r <==> FromByte(c).Some?
    ensures r <==> c in "H2Z"
  {
    FromByte(c).Some?
  }

  /** Two accepted bytes that map to the same encoding are the same byte. */
  lemma FromByteInjective(a: char, b: char)
    requires FromByte(a).Some? && FromByte(a) == FromByte(b)
    ensures a == b
  {
    assert a == Tag(FromByte(a).value);
  }
}

=== FILE: file_type.dfy ===
/** The content-type tag table (bbqr/src/file_type.rs). The newer crate's own
    file_type.rs is not part of this model; both crates use this one table. */
module FileTypes {
  import opened Wrappers

  datatype FileType = Psbt | Transaction | Json | Cbor | UnicodeText

  /** The single character that names each content type in a header. */
  function Tag(ft: FileType): char
  {
    match ft
    case Psbt => 'P'
    case Transaction => 'T'
    case Json => 'J'
    case Cbor => 'C'
    case UnicodeText => 'U'
  }

  /** `FileType::from_byte`: exactly the five tags are accepted, each naming
      its own content type. */
  function FromByte(c: char): (r: Option<FileType>)
    ensures forall ft :: r == Some(ft) <==> c == Tag(ft)
  {
    match c
    case 'P' => Some(Psbt)
    case 'T' => Some(Transaction)
    case 'J' => Some(Json)
    case 'C' => Some(Cbor)
    case 'U' => Some(UnicodeText)
    case _ => None
  }

  /** `FileType::is_known_filetype`. */
  function IsKnownFileType(c: char): (r: bool)
    ensures r <==> FromByte(c).Some?
    ensures r <==> c in "PTJCU"
  {
    FromByte(c).Some?
  }

  /** `Display for FileType`: the human-readable name, which opens with the
      type's header tag. */
  function Display(ft: FileType): (name: string)
    ensures |name| > 0 && name[0] == Tag(ft)
    ensures FromByte(name[0]) == Some(ft)
  {
    match ft
    case Psbt => "PSBT"
    case Transaction => "Transaction"
    case Json => "JSON"
    case Cbor => "CBOR"
    case UnicodeText => "Unicode Text"
  }

  /** Two accepted bytes that map to the same content type are the same byte. */
  lemma FromByteInjective(a: char, b: char)
    requires FromByte(a).Some? && FromByte(a) == FromByte(b)
    ensures a == b
  {
    assert a == Tag(FromByte(a).value);
  }

  /** Each content type has its own name. */
  lemma DisplayInjective(a: FileType, b: FileType)
    requires Display(a) == Display(b)
    ensures a == b
  {
  }
}

=== FILE: header.dfy ===
/** The header codec of src/header.rs: `B$`, an encoding tag, a file-type tag
    and a two-character base-36 part count. Parsing is modelled from the code;
    rendering (`Header::to_string`, `int_to_padded_base_36`) is not part of
    this model and is left uninterpreted, constrained only to produce text the
    parser reads back. */
module Headers {
  import opened Wrappers
  import Encodings
  import FileTypes
  import Radix36
  import Consts

  datatype Header = Header(encoding: Encodings.Encoding, fileType: FileTypes.FileType, numParts: nat)

  datatype HeaderParseError =
    | Empty
    | InvalidEncoding(encodingByte: char)
    | InvalidFileType(fileTypeByte: char)
    | InvalidFixedHeader
    | InvalidHeaderSize(length: nat)
    | InvalidHeaderParts(message: string)

  /** The fixed protocol marker that opens every header. */
  const Marker: string := "B$"

  /** `Header::try_from_str`. The checks run in a fixed order and each failure
      has its own error: empty text, text shorter than `HEADER_LENGTH`, a wrong
      marker, an unknown encoding tag, an unknown file-type tag, an unreadable
      part count. */
  function TryFromStr(s: string): (r: Result<Header, HeaderParseError>)
    ensures |s| == 0 <==> r == Err(HeaderParseError.Empty)
    ensures 0 < |s| < Consts.HeaderLength <==> r == Err(InvalidHeaderSize(|s|))
    ensures |s| >= Consts.HeaderLength ==> (s[..2] != Marker <==> r == Err(InvalidFixedHeader))
    ensures |s| >= Consts.HeaderLength && s[..2] == Marker ==>
      (Encodings.FromByte(s[2]).None? <==> r == Err(InvalidEncoding(s[2])))
    ensures |s| >= Consts.HeaderLength && s[..2] == Marker && Encodings.FromByte(s[2]).Some? ==>
      (FileTypes.FromByte(s[3]).None? <==> r == Err(InvalidFileType(s[3])))
    ensures (|s| >= Consts.HeaderLength && s[..2] == Marker
      && Encodings.FromByte(s[2]).Some? && FileTypes.FromByte(s[3]).Some?) ==>
      (Radix36.ParseUsize(s[4..6]).None? <==> r.Err? && r.error.InvalidHeaderParts?)
    ensures r.Ok? <==>
      && |s| >= Consts.HeaderLength && s[..2] == Marker
      && Encodings.FromByte(s[2]).Some? && FileTypes.FromByte(s[3]).Some?
      && Radix36.ParseUsize(s[4..6]).Some?
    ensures r.Ok? ==>
      && Encodings.FromByte(s[2]) == Some(r.value.encoding)
      && FileTypes.FromByte(s[3]) == Some(r.value.fileType)
      && Radix36.ParseUsize(s[4..6]) == Some(r.value.numParts)
      && r.value.numParts <= Radix36.MaxTwoDigits
  {
    if |s| == 0 then Err(HeaderParseError.Empty)
    else if |s| < Consts.HeaderLength then Err(InvalidHeaderSize(|s|))
    else if s[..2] != Marker then Err(InvalidFixedHeader)
    else match Encodings.FromByte(s[2])
      case None => Err(InvalidEncoding(s[2]))
      case Some(encoding) =>
        match FileTypes.FromByte(s[3])
        case None => Err(InvalidFileType(s[3]))
        case Some(fileType) =>
          match Radix36.ParseUsize(s[4..6])
          case None => Err(InvalidHeaderParts("Invalid number of parts: " + s[4..6]))
          case Some(numParts) =>
            Radix36.TwoCharsBounded(s[4..6]);
            Ok(Header(encoding, fileType, numParts))
  }

  /** For text long enough to be a header, only the first six characters
      decide the outcome. */
  lemma PrefixDecides(s: string, t: string)
    requires |s| >= Consts.HeaderLength && |t| >= Consts.HeaderLength
    requires s[..6] == t[..6]
    ensures TryFromStr(s) == TryFromStr(t)
  {
    assert s[..2] == s[..6][..2] && t[..2] == t[..6][..2];
    assert s[2] == s[..6][2] && t[2] == t[..6][2];
    assert s[3] == s[..6][3] && t[3] == t[..6][3];
    assert s[4..6] == s[..6][4..6] && t[4..6] == t[..6][4..6];
  }

  /** `"B$ZU08..."` is a Zlib-encoded Unicode text in 8 parts. */
  lemma ParsesZlibUnicodeEight(rest: string)
    requires |"B$ZU08" + rest| >= Consts.HeaderLength
    ensures TryFromStr("B$ZU08" + rest) == Ok(Header(Encodings.Zlib, FileTypes.UnicodeText, 8))
  {
    var s := "B$ZU08" + rest;
    assert s[..2] == Marker && s[2] == 'Z' && s[3] == 'U' && s[4..6] == "08";
    assert "08"[1..][..0] == "08"[..1][..0];
  }

  /** `"B#888888"` has the wrong marker. */
  lemma RejectsWrongMarker()
    ensures TryFromStr("B#888888") ==
      if Consts.HeaderLength <= 8 then Err(InvalidFixedHeader) else Err(InvalidHeaderSize(8))
  {
    var s := "B#888888";
    assert s[1] == '#' && Marker[1] == '$';
    assert s[..2][1] != Marker[1];
  }

  /** The six characters a header renders to when its part count fits in two
      base-36 digits: the marker, the two tags and the count. */
  predicate RendersAs(t: string, h: Header)
  {
    && |t| == 6 && t[..2] == Marker
    && Encodings.FromByte(t[2]) == Some(h.encoding)
    && FileTypes.FromByte(t[3]) == Some(h.fileType)
    && Radix36.ParseUsize(t[4..6]) == Some(h.numParts)
  }

  /** One rendering that meets the contract below: upper-case, zero-padded. */
  function CanonicalText(h: Header): (t: string)
    ensures h.numParts <= Radix36.MaxTwoDigits ==> RendersAs(t, h)
  {
    var t := Marker + [Encodings.Tag(h.encoding), FileTypes.Tag(h.fileType)] + Radix36.PadTwo(h.numParts);
    assert t[4..6] == Radix36.PadTwo(h.numParts);
    t
  }

  /** f renders h as the parser expects, if the count fits in two digits. */
  predicate RendersHeader(f: Header -> string, h: Header)
  {
    h.numParts <= Radix36.MaxTwoDigits ==> RendersAs(f(h), h)
  }

  /** f renders index i as two characters that parse back to i, if i fits in
      two digits. */
  predicate RendersIndex(f: nat -> string, i: nat)
  {
    i <= Radix36.MaxTwoDigits ==> |f(i)| == 2 && Radix36.ParseUsize(f(i)) == Some(i)
  }

  type HeaderRenderer = f: Header -> string | forall h: Header :: RendersHeader(f, h)
    witness CanonicalText

  type IndexRenderer = f: nat -> string | forall i: nat :: RendersIndex(f, i)
    witness Radix36.PadTwo

  /** `Header::to_string`: six characters the parser reads back, for every
      part count that fits in two base-36 digits. */
  const ToText: HeaderRenderer

  /** `int_to_padded_base_36`: two characters that parse back to the index. */
  const PaddedBase36: IndexRenderer

  /** A rendered header, followed by anything that makes it long enough,
      parses back to the header it was rendered from. */
  lemma ParsesRendered(h: Header, rest: string)
    requires h.numParts <= Radix36.MaxTwoDigits
    requires |ToText(h) + rest| >= Consts.HeaderLength
    ensures TryFromStr(ToText(h) + rest) == Ok(h)
  {
    var t := ToText(h);
    var s := t + rest;
    assert RendersHeader(ToText, h);
    assert RendersAs(t, h);
    assert s[..|t|] == t;
    assert s[..2] == t[..2] && s[2] == t[2] && s[3] == t[3] && s[4..6] == t[4..6];
  }

  /** A rendered index is two characters that parse back to it. */
  lemma IndexParses(i: nat)
    requires i <= Radix36.MaxTwoDigits
    ensures |PaddedBase36(i)| == 2 && Radix36.ParseUsize(PaddedBase36(i)) == Some(i)
  {
    assert RendersIndex(PaddedBase36, i);
  }
}

=== FILE: join.dfy ===
/** The batch joiner of src/join.rs: header agreement, placement of each
    part's payload by its index, the missing-part check and decoding. */
module Join {
  import opened Wrappers
  import Encodings
  import FileTypes
  import Radix36
  import Consts
  import Headers
  import Decode

  datatype JoinError =
    | Empty
    | ConflictingHeaders
    | TooManyParts(expected: nat, got: nat)
    | DuplicatePartWrongContent(index: nat)
    | PartWithNoData(index: nat)
    | MissingPart(index: nat)
    | HeaderParseError(headerError: Headers.HeaderParseError)
    | DecodeError(decodeError: Decode.DecodeError)
      /** Not an error value of the source: a part index that does not parse
          makes the joiner's `unwrap` panic. */
    | IndexPanic

  datatype Joined = Joined(encoding: Encodings.Encoding, fileType: FileTypes.FileType, data: seq<byte>)

  /** Where the part index sits: characters 6 and 7; the payload follows. */
  const IndexStart: nat := 6
  const DataStart: nat := 8

  /** The position of the first non-empty part, if any. */
  function FirstNonEmpty(parts: seq<string>): (r: Option<nat>)
    ensures r.None? <==> forall i :: 0 <= i < |parts| ==> parts[i] == ""
    ensures r.Some? ==>
      && r.value < |parts| && parts[r.value] != ""
      && forall j :: 0 <= j < r.value ==> parts[j] == ""
  {
    if |parts| == 0 then None
    else if parts[0] != "" then Some(0)
    else match FirstNonEmpty(parts[1..])
      case None => None
      case Some(i) => Some(i + 1)
  }

  /** A part that passes the header comparison against the first header. */
  predicate SameHeader(p: string, first: string)
    requires |first| >= IndexStart
  {
    p == "" || (|p| >= Consts.HeaderLength && p[..IndexStart] == first[..IndexStart])
  }

  /** The comparison loop of `get_and_verify_headers` over the parts after
      the first one. */
  function RestAgree(rest: seq<string>, first: string): (r: bool)
    requires |first| >= IndexStart
    ensures r <==> forall i :: 0 <= i < |rest| ==> SameHeader(rest[i], first)
  {
    |rest| == 0 || (SameHeader(rest[0], first) && RestAgree(rest[1..], first))
  }

  /** `get_and_verify_headers`: the first non-empty part's header, provided
      every non-empty part is long enough and carries the same first six
      characters. The loop skips position 0, which is harmless: that part is
      either empty or the first header itself. */
  function GetAndVerifyHeaders(parts: seq<string>): (r: Result<Headers.Header, JoinError>)
    ensures (forall i :: 0 <= i < |parts| ==> parts[i] == "") <==> r == Err(Empty)
    ensures FirstNonEmpty(parts).Some? && Headers.TryFromStr(parts[FirstNonEmpty(parts).value]).Err? ==>
      r == Err(HeaderParseError(Headers.TryFromStr(parts[FirstNonEmpty(parts).value]).error))
    ensures r.Ok? <==>
      && FirstNonEmpty(parts).Some?
      && var first := parts[FirstNonEmpty(parts).value];
      && Headers.TryFromStr(first).Ok?
      && forall i :: 0 <= i < |parts| ==> SameHeader(parts[i], first)
    ensures r.Ok? ==> Headers.TryFromStr(parts[FirstNonEmpty(parts).value]) == Ok(r.value)
    ensures FirstNonEmpty(parts).Some? ==>
      var first := parts[FirstNonEmpty(parts).value];
      Headers.TryFromStr(first).Ok? && !(forall i :: 0 <= i < |parts| ==> SameHeader(parts[i], first)) ==>
      r == Err(ConflictingHeaders)
    ensures r.Err? ==> r.error in {Empty, ConflictingHeaders} || r.error.HeaderParseError?
  {
    if |parts| == 0 then Err(Empty)
    else match FirstNonEmpty(parts)
      case None => Err(Empty)
      case Some(k) =>
        var first := parts[k];
        match Headers.TryFromStr(first)
        case Err(e) => Err(HeaderParseError(e))
        case Ok(header) =>
          if RestAgree(parts[1..], first) then
            assert parts[0] == "" || k == 0;
            Ok(header)
          else
            assert !(forall i :: 0 <= i < |parts| ==> SameHeader(parts[i], first)) by {
              var j :| 0 <= j < |parts[1..]| && !SameHeader(parts[1..][j], first);
              assert parts[j + 1] == parts[1..][j];
            }
            Err(ConflictingHeaders)
  }

  /** Every non-empty part of an accepted batch carries the batch's header. */
  lemma HeadersAgreeAll(parts: seq<string>, p: string)
    requires GetAndVerifyHeaders(parts).Ok?
    requires p in parts && p != ""
    ensures |p| >= Consts.HeaderLength
    ensures Headers.TryFromStr(p) == Ok(GetAndVerifyHeaders(parts).value)
  {
    var first := parts[FirstNonEmpty(parts).value];
    var i :| 0 <= i < |parts| && parts[i] == p;
    assert SameHeader(parts[i], first);
    Headers.PrefixDecides(p, first);
  }

  /** A part whose characters 6 and 7 parse as a base-36 index. */
  predicate Indexed(p: string)
  {
    |p| >= DataStart && Radix36.ParseUsize(p[IndexStart..DataStart]).Some?
  }

  function Index(p: string): nat
    requires Indexed(p)
  {
    Radix36.ParseUsize(p[IndexStart..DataStart]).value
  }

  /** The payload after the header and the index. */
  function Data(p: string): string
    requires |p| >= DataStart
  {
    p[DataStart..]
  }

  /** One turn of the placement loop: an empty part is skipped; otherwise
      its index must parse, be in range, not clash with a different payload
      already placed there, and carry a payload, in that order. */
  function Place(slots: seq<string>, p: string): (r: Result<seq<string>, JoinError>)
    ensures p == "" ==> r == Ok(slots)
    ensures p != "" && !Indexed(p) ==> r == Err(IndexPanic)
    ensures r.Ok? <==> p == "" || Fits(slots, p)
    ensures r.Ok? && p != "" ==> r.value == slots[Index(p) := Data(p)]
    ensures Indexed(p) && Index(p) >= |slots| ==> r == Err(TooManyParts(|slots|, Index(p) + 1))
    ensures Indexed(p) && Index(p) < |slots| && slots[Index(p)] != "" && slots[Index(p)] != Data(p) ==>
      r == Err(DuplicatePartWrongContent(Index(p)))
    ensures Indexed(p) && Index(p) < |slots| && (slots[Index(p)] == "" || slots[Index(p)] == Data(p)) && Data(p) == "" ==>
      r == Err(PartWithNoData(Index(p)))
  {
    if p == "" then Ok(slots)
    else if |p| < DataStart then Err(IndexPanic)
    else match Radix36.ParseUsize(p[IndexStart..DataStart])
      case None => Err(IndexPanic)
      case Some(index) =>
        var data := p[DataStart..];
        if index >= |slots| then Err(TooManyParts(|slots|, index + 1))
        else if slots[index] != "" && slots[index] != data then Err(DuplicatePartWrongContent(index))
        else if data == "" then Err(PartWithNoData(index))
        else Ok(slots[index := data])
  }

  /** Non-empty part p can be placed: it has an index in range, a payload,
      and its slot is free or already holds the same payload. */
  predicate Fits(slots: seq<string>, p: string)
  {
    && Indexed(p) && Index(p) < |slots| && Data(p) != ""
    && (slots[Index(p)] == "" || slots[Index(p)] == Data(p))
  }

  /** The placement loop of `join_qrs`, parts taken in order. */
  function Fold(slots: seq<string>, parts: seq<string>): (r: Result<seq<string>, JoinError>)
    ensures r.Ok? ==> |r.value| == |slots|
    ensures r.Err? ==>
      || r.error.TooManyParts? || r.error.DuplicatePartWrongContent?
      || r.error.PartWithNoData? || r.error.IndexPanic?
    decreases |parts|
  {
    if |parts| == 0 then Ok(slots)
    else match Place(slots, parts[0])
      case Err(e) => Err(e)
      case Ok(next) => Fold(next, parts[1..])
  }

  /** Every part is empty or has an index below n and a payload. */
  ghost predicate AllAdmissible(n: nat, parts: seq<string>)
  {
    forall p :: p in parts && p != "" ==> Indexed(p) && Index(p) < n && Data(p) != ""
  }

  /** Parts with the same index carry the same payload. */
  ghost predicate Agreeing(parts: seq<string>)
  {
    forall p, q :: p in parts && q in parts && Indexed(p) && Indexed(q) && Index(p) == Index(q) ==>
      Data(p) == Data(q)
  }

  /** Every part's slot is free or already holds its payload. */
  ghost predicate Compatible(slots: seq<string>, parts: seq<string>)
  {
    forall p :: p in parts && Indexed(p) && Index(p) < |slots| ==>
      slots[Index(p)] == "" || slots[Index(p)] == Data(p)
  }

  /** Some part carries index k. */
  ghost predicate Claimed(parts: seq<string>, k: nat)
  {
    exists p :: p in parts && Indexed(p) && Index(p) == k
  }

  /** r is slots with every part's payload written at its index and every
      unclaimed slot left as it was. */
  ghost predicate Fills(slots: seq<string>, parts: seq<string>, r: seq<string>)
  {
    && |r| == |slots|
    && (forall p :: p in parts && Indexed(p) && Index(p) < |r| ==> r[Index(p)] == Data(p))
    && (forall k: nat :: k < |r| && !Claimed(parts, k) ==> r[k] == slots[k])
  }

  /** The placement loop succeeds exactly when the parts are admissible,
      agree with each other and fit the slots, and then it writes each
      payload at its index and nothing else. */
  lemma {:induction false} FoldSpec(slots: seq<string>, parts: seq<string>)
    ensures Fold(slots, parts).Ok? <==>
      AllAdmissible(|slots|, parts) && Agreeing(parts) && Compatible(slots, parts)
    ensures Fold(slots, parts).Ok? ==> Fills(slots, parts, Fold(slots, parts).value)
    decreases |parts|
  {
    if |parts| == 0 {
      assert forall k: nat :: !Claimed(parts, k);
    } else {
      var p := parts[0];
      var rest := parts[1..];
      assert forall x :: x in parts <==> x == p || x in rest by {
        assert parts == [p] + rest;
      }
      FoldSpec(if Place(slots, p).Ok? then Place(slots, p).value else slots, rest);
      if p == "" {
        FoldSkip(slots, p, rest, parts);
      } else if Place(slots, p).Err? {
        assert !(AllAdmissible(|slots|, parts) && Compatible(slots, parts));
      } else {
        FoldStep(slots, p, rest, parts);
      }
    }
  }

  /** The induction step of FoldSpec for an empty part, which the loop
      skips and none of the conditions looks at. */
  lemma FoldSkip(slots: seq<string>, p: string, rest: seq<string>, parts: seq<string>)
    requires forall x :: x in parts <==> x == p || x in rest
    requires p == "" && Fold(slots, parts) == Fold(slots, rest)
    requires Fold(slots, rest).Ok? <==> AllAdmissible(|slots|, rest) && Agreeing(rest) && Compatible(slots, rest)
    requires Fold(slots, rest).Ok? ==> Fills(slots, rest, Fold(slots, rest).value)
    ensures Fold(slots, parts).Ok? <==>
      AllAdmissible(|slots|, parts) && Agreeing(parts) && Compatible(slots, parts)
    ensures Fold(slots, parts).Ok? ==> Fills(slots, parts, Fold(slots, parts).value)
  {
    assert AllAdmissible(|slots|, parts) == AllAdmissible(|slots|, rest);
    assert Agreeing(parts) == Agreeing(rest);
    assert Compatible(slots, parts) == Compatible(slots, rest);
    assert forall k: nat :: Claimed(parts, k) == Claimed(rest, k);
  }

  /** The induction step of FoldSpec for a part that is placed. */
  lemma FoldStep(slots: seq<string>, p: string, rest: seq<string>, parts: seq<string>)
    requires forall x :: x in parts <==> x == p || x in rest
    requires p != "" && Fits(slots, p)
    requires var next := slots[Index(p) := Data(p)];
      && (Fold(next, rest).Ok? <==> AllAdmissible(|next|, rest) && Agreeing(rest) && Compatible(next, rest))
      && (Fold(next, rest).Ok? ==> Fills(next, rest, Fold(next, rest).value))
    ensures var next := slots[Index(p) := Data(p)];
      Fold(next, rest).Ok? <==> AllAdmissible(|slots|, parts) && Agreeing(parts) && Compatible(slots, parts)
    ensures var next := slots[Index(p) := Data(p)];
      Fold(next, rest).Ok? ==> Fills(slots, parts, Fold(next, rest).value)
  {
    var i := Index(p);
    var next := slots[i := Data(p)];
    if AllAdmissible(|slots|, parts) && Agreeing(parts) && Compatible(slots, parts) {
      assert Compatible(next, rest) by {
        forall q | q in rest && Indexed(q) && Index(q) < |next|
          ensures next[Index(q)] == "" || next[Index(q)] == Data(q)
        {
          if Index(q) == i {
            assert Data(q) == Data(p);
          }
        }
      }
    }
    if Fold(next, rest).Ok? {
      var r := Fold(next, rest).value;
      assert Agreeing(parts) by {
        forall q, q' | q in parts && q' in parts && Indexed(q) && Indexed(q') && Index(q) == Index(q')
          ensures Data(q) == Data(q')
        {
          if q == p && q' in rest {
            assert next[i] == Data(p);
          } else if q' == p && q in rest {
            assert next[i] == Data(p);
          }
        }
      }
      assert Compatible(slots, parts) by {
        forall q | q in parts && Indexed(q) && Index(q) < |slots|
          ensures slots[Index(q)] == "" || slots[Index(q)] == Data(q)
        {
          if q != p && Index(q) == i {
            assert next[i] == Data(p);
          } else if q != p {
            assert next[Index(q)] == slots[Index(q)];
          }
        }
      }
      assert Fills(slots, parts, r) by {
        forall q | q in parts && Indexed(q) && Index(q) < |r|
          ensures r[Index(q)] == Data(q)
        {
          if q == p && !Claimed(rest, i) {
            assert r[i] == next[i];
          } else if q == p {
            var q' :| q' in rest && Indexed(q') && Index(q') == i;
            assert Data(q') == Data(p);
          }
        }
        forall k: nat | k < |r| && !Claimed(parts, k)
          ensures r[k] == slots[k]
        {
          assert !Claimed(rest, k);
          assert k != i;
        }
      }
    }
  }

  /** A predicate naming a placement that fails: parts[..i] fold without
      error and part i then fails to place, with error e. */
  predicate FailsAt(slots: seq<string>, parts: seq<string>, i: nat, e: JoinError)
  {
    && i < |parts|
    && Fold(slots, parts[..i]).Ok?
    && Place(Fold(slots, parts[..i]).value, parts[i]) == Err(e)
  }

  /** Folding a concatenation folds the first list, then the second from
      where the first left off; an error in the first list ends the loop. */
  lemma {:induction false} FoldAppend(slots: seq<string>, a: seq<string>, b: seq<string>)
    ensures Fold(slots, a + b) ==
      if Fold(slots, a).Err? then Fold(slots, a) else Fold(Fold(slots, a).value, b)
    decreases |a|
  {
    if |a| == 0 {
      assert a + b == b;
    } else {
      assert (a + b)[0] == a[0];
      assert (a + b)[1..] == a[1..] + b;
      if Place(slots, a[0]).Ok? {
        FoldAppend(Place(slots, a[0]).value, a[1..], b);
      }
    }
  }

  /** The loop stops at the first part that fails to place and returns that
      part's error. */
  lemma FoldStopsAt(slots: seq<string>, parts: seq<string>, i: nat, e: JoinError)
    requires FailsAt(slots, parts, i, e)
    ensures Fold(slots, parts) == Err(e)
  {
    assert parts == parts[..i] + parts[i..];
    FoldAppend(slots, parts[..i], parts[i..]);
    assert parts[i..][0] == parts[i];
  }

  /** Conversely, every error of the loop is the error of some part that
      fails to place after all the parts before it were placed. */
  lemma {:induction false} FoldFailsAt(slots: seq<string>, parts: seq<string>) returns (i: nat)
    requires Fold(slots, parts).Err?
    ensures FailsAt(slots, parts, i, Fold(slots, parts).error)
    decreases |parts|
  {
    if Place(slots, parts[0]).Err? {
      i := 0;
      assert parts[..0] == [];
    } else {
      var next := Place(slots, parts[0]).value;
      var j := FoldFailsAt(next, parts[1..]);
      i := j + 1;
      assert parts[..i][0] == parts[0] && parts[..i][1..] == parts[1..][..j];
      assert parts[i] == parts[1..][j];
    }
  }

  /** The pre-allocated slots: n empty payloads. */
  function Blank(n: nat): (r: seq<string>)
    ensures |r| == n && forall k :: 0 <= k < n ==> r[k] == ""
  {
    seq(n, _ => "")
  }

  /** The lowest slot still empty, if any. */
  function FirstMissing(slots: seq<string>): (r: Option<nat>)
    ensures r.None? <==> forall k :: 0 <= k < |slots| ==> slots[k] != ""
    ensures r.Some? ==>
      && r.value < |slots| && slots[r.value] == ""
      && forall j :: 0 <= j < r.value ==> slots[j] != ""
  {
    if |slots| == 0 then None
    else if slots[0] == "" then Some(0)
    else match FirstMissing(slots[1..])
      case None => None
      case Some(k) => Some(k + 1)
  }

  /** `join_qrs`: verify the headers, place every payload, report the lowest
      missing index, then decode the payloads in index order. */
  function JoinQrs(parts: seq<string>): (r: Result<(Headers.Header, seq<byte>), JoinError>)
    ensures GetAndVerifyHeaders(parts).Err? ==> r == Err(GetAndVerifyHeaders(parts).error)
    ensures r.Ok? ==> GetAndVerifyHeaders(parts) == Ok(r.value.0)
    ensures GetAndVerifyHeaders(parts).Ok? && r.Err? ==>
      || r.error.TooManyParts? || r.error.DuplicatePartWrongContent?
      || r.error.PartWithNoData? || r.error.IndexPanic?
      || r.error.MissingPart? || r.error.DecodeError?
  {
    match GetAndVerifyHeaders(parts)
    case Err(e) => Err(e)
    case Ok(header) =>
      match Fold(Blank(header.numParts), parts)
      case Err(e) => Err(e)
      case Ok(ordered) =>
        match FirstMissing(ordered)
        case Some(k) => Err(MissingPart(k))
        case None =>
          match Decode.DecodeOrderedParts(ordered, header.encoding)
          case Err(e) => Err(DecodeError(e))
          case Ok(data) => Ok((header, data))
  }

  /** `Joined::try_from_parts`. */
  function TryFromParts(parts: seq<string>): (r: Result<Joined, JoinError>)
    ensures r.Ok? <==> JoinQrs(parts).Ok?
    ensures r.Ok? ==>
      && GetAndVerifyHeaders(parts) == Ok(Headers.Header(r.value.encoding, r.value.fileType, GetAndVerifyHeaders(parts).value.numParts))
      && r.value.data == JoinQrs(parts).value.1
    ensures r.Err? ==> r.error == JoinQrs(parts).error
  {
    match JoinQrs(parts)
    case Err(e) => Err(e)
    case Ok((header, data)) => Ok(Joined(header.encoding, header.fileType, data))
  }

  /** slots holds, at each part's index, that part's payload. */
  ghost predicate Arranges(parts: seq<string>, slots: seq<string>)
  {
    forall p :: p in parts && Indexed(p) && Index(p) < |slots| ==> slots[Index(p)] == Data(p)
  }

  /** Every index below n is carried by some part. */
  ghost predicate Complete(parts: seq<string>, n: nat)
  {
    forall k: nat :: k < n ==> Claimed(parts, k)
  }

  /** Two arrangements of a complete batch are the same sequence. */
  lemma ArrangementUnique(parts: seq<string>, s: seq<string>, t: seq<string>)
    requires |s| == |t| && Complete(parts, |s|)
    requires Arranges(parts, s) && Arranges(parts, t)
    ensures s == t
  {
    forall k | 0 <= k < |s|
      ensures s[k] == t[k]
    {
      assert Claimed(parts, k);
      var p :| p in parts && Indexed(p) && Index(p) == k;
    }
  }

  /** What an accepted batch satisfies: every part is admissible, the parts
      agree, every index is present, and the data is the decoding of the
      payloads in index order. */
  lemma JoinSound(parts: seq<string>, slots: seq<string>)
    requires JoinQrs(parts).Ok?
    requires |slots| == JoinQrs(parts).value.0.numParts && Arranges(parts, slots)
    ensures AllAdmissible(|slots|, parts) && Agreeing(parts) && Complete(parts, |slots|)
    ensures Decode.DecodeOrderedParts(slots, JoinQrs(parts).value.0.encoding) == Ok(JoinQrs(parts).value.1)
  {
    var header := JoinQrs(parts).value.0;
    var n := header.numParts;
    FoldSpec(Blank(n), parts);
    var ordered := Fold(Blank(n), parts).value;
    forall k: nat | k < n
      ensures Claimed(parts, k)
    {
    }
    ArrangementUnique(parts, ordered, slots);
  }

  /** The converse: a batch with agreeing headers whose parts are admissible,
      agreeing and complete, and whose payloads decode, is accepted. */
  lemma JoinComplete(parts: seq<string>, slots: seq<string>, data: seq<byte>)
    requires GetAndVerifyHeaders(parts).Ok?
    requires |slots| == GetAndVerifyHeaders(parts).value.numParts
    requires AllAdmissible(|slots|, parts) && Agreeing(parts) && Complete(parts, |slots|)
    requires Arranges(parts, slots)
    requires Decode.DecodeOrderedParts(slots, GetAndVerifyHeaders(parts).value.encoding) == Ok(data)
    ensures JoinQrs(parts) == Ok((GetAndVerifyHeaders(parts).value, data))
  {
    var n := |slots|;
    FoldSpec(Blank(n), parts);
    var ordered := Fold(Blank(n), parts).value;
    ArrangementUnique(parts, ordered, slots);
    forall k | 0 <= k < n
      ensures slots[k] != ""
    {
      assert Claimed(parts, k);
      var p :| p in parts && Indexed(p) && Index(p) == k;
    }
  }

  /** The non-empty parts of two batches are the same set. */
  ghost predicate SameNonEmpty(ps: seq<string>, qs: seq<string>)
  {
    forall p :: p in ps && p != "" <==> p in qs && p != ""
  }

  /** The header check sees only the set of non-empty parts. */
  lemma HeadersOrderFree(ps: seq<string>, qs: seq<string>)
    requires GetAndVerifyHeaders(ps).Ok? && SameNonEmpty(ps, qs)
    ensures GetAndVerifyHeaders(qs) == GetAndVerifyHeaders(ps)
  {
    var h := GetAndVerifyHeaders(ps).value;
    var firstP := ps[FirstNonEmpty(ps).value];
    assert firstP in ps;
    var firstQ := qs[FirstNonEmpty(qs).value];
    assert firstQ in qs;
    HeadersAgreeAll(ps, firstQ);
    forall i | 0 <= i < |qs|
      ensures SameHeader(qs[i], firstQ)
    {
      if qs[i] != "" {
        assert qs[i] in ps;
        assert SameHeader(qs[i], firstP) && SameHeader(firstQ, firstP) by {
          var a :| 0 <= a < |ps| && ps[a] == qs[i];
          var b :| 0 <= b < |ps| && ps[b] == firstQ;
        }
      }
    }
  }

  /** Joining depends only on the set of non-empty parts: neither their
      order, nor repeated scans of the same part, nor empty strings change
      an accepted result. */
  lemma JoinOrderFree(ps: seq<string>, qs: seq<string>)
    requires JoinQrs(ps).Ok? && SameNonEmpty(ps, qs)
    ensures JoinQrs(qs) == JoinQrs(ps)
  {
    var n := JoinQrs(ps).value.0.numParts;
    HeadersOrderFree(ps, qs);
    FoldSpec(Blank(n), ps);
    var ordered := Fold(Blank(n), ps).value;
    JoinSound(ps, ordered);
    Transfer(ps, qs, ordered);
    JoinComplete(qs, ordered, JoinQrs(ps).value.1);
  }

  /** The batch conditions carry over between batches with the same
      non-empty parts. */
  lemma Transfer(ps: seq<string>, qs: seq<string>, slots: seq<string>)
    requires SameNonEmpty(ps, qs)
    requires AllAdmissible(|slots|, ps) && Agreeing(ps) && Complete(ps, |slots|) && Arranges(ps, slots)
    ensures AllAdmissible(|slots|, qs) && Agreeing(qs) && Complete(qs, |slots|) && Arranges(qs, slots)
  {
    forall k: nat | k < |slots|
      ensures Claimed(qs, k)
    {
      assert Claimed(ps, k);
      var p :| p in ps && Indexed(p) && Index(p) == k;
      assert p in qs;
    }
  }

  /** Scanning a part a second time, anywhere in the batch, is harmless. */
  lemma RescanHarmless(ps: seq<string>, i: nat, j: nat)
    requires JoinQrs(ps).Ok? && i < |ps| && j <= |ps|
    ensures JoinQrs(ps[..j] + [ps[i]] + ps[j..]) == JoinQrs(ps)
  {
    var qs := ps[..j] + [ps[i]] + ps[j..];
    assert forall p :: p in qs <==> p in ps by {
      assert ps == ps[..j] + ps[j..];
    }
    JoinOrderFree(ps, qs);
  }

  /** Two parts with the same index and different payloads are rejected. */
  lemma ConflictingDuplicateRejected(parts: seq<string>, p: string, q: string)
    requires p in parts && q in parts && Indexed(p) && Indexed(q)
    requires Index(p) == Index(q) && Data(p) != Data(q)
    ensures JoinQrs(parts).Err?
  {
    if JoinQrs(parts).Ok? {
      FoldSpec(Blank(JoinQrs(parts).value.0.numParts), parts);
    }
  }

  /** A batch whose header announces zero parts is always rejected. */
  lemma ZeroPartsRejected(parts: seq<string>)
    requires GetAndVerifyHeaders(parts).Ok? && GetAndVerifyHeaders(parts).value.numParts == 0
    ensures JoinQrs(parts).Err?
  {
    var k := FirstNonEmpty(parts).value;
    assert parts[k] in parts;
    FoldSpec(Blank(0), parts);
  }

  /** A clashing payload is reported before an empty one: a part with no
      payload whose slot already holds data is a wrong duplicate. */
  lemma DuplicateBeforeEmpty(slots: seq<string>, p: string)
    requires Indexed(p) && Index(p) < |slots|
    requires slots[Index(p)] != "" && Data(p) == ""
    ensures Place(slots, p) == Err(DuplicatePartWrongContent(Index(p)))
  {
  }

  /** Placing a part a second time leaves the slots as they are. */
  lemma PlaceIdempotent(slots: seq<string>, p: string)
    requires Place(slots, p).Ok?
    ensures Place(Place(slots, p).value, p) == Place(slots, p)
  {
    if p != "" {
      var next := Place(slots, p).value;
      assert next[Index(p)] == Data(p);
      assert next[Index(p) := Data(p)] == next;
    }
  }

  /** The missing part reported is the lowest index no part carries. */
  lemma MissingIsLowest(parts: seq<string>, k: nat)
    requires JoinQrs(parts) == Err(MissingPart(k))
    ensures GetAndVerifyHeaders(parts).Ok? && k < GetAndVerifyHeaders(parts).value.numParts
    ensures !Claimed(parts, k)
    ensures forall j: nat :: j < k ==> Claimed(parts, j)
  {
    var n := GetAndVerifyHeaders(parts).value.numParts;
    FoldSpec(Blank(n), parts);
    var ordered := Fold(Blank(n), parts).value;
    forall j: nat | j < k
      ensures Claimed(parts, j)
    {
      assert ordered[j] != "";
    }
  }

  /** Once the headers pass, the first part that fails to place decides the
      error of the join. */
  lemma PlacementFailureReported(parts: seq<string>, i: nat, e: JoinError)
    requires GetAndVerifyHeaders(parts).Ok?
    requires FailsAt(Blank(GetAndVerifyHeaders(parts).value.numParts), parts, i, e)
    ensures JoinQrs(parts) == Err(e)
  {
    FoldStopsAt(Blank(GetAndVerifyHeaders(parts).value.numParts), parts, i, e);
  }

  /** Every placement error of the join comes from a part that fails to
      place once the headers have passed and the parts before it have been
      placed. */
  lemma PlacementFailureLocated(parts: seq<string>) returns (i: nat)
    requires JoinQrs(parts).Err?
    requires var e := JoinQrs(parts).error;
      e.TooManyParts? || e.DuplicatePartWrongContent? || e.PartWithNoData? || e.IndexPanic?
    ensures GetAndVerifyHeaders(parts).Ok?
    ensures FailsAt(Blank(GetAndVerifyHeaders(parts).value.numParts), parts, i, JoinQrs(parts).error)
  {
    i := FoldFailsAt(Blank(GetAndVerifyHeaders(parts).value.numParts), parts);
  }

  /** The converse of MissingIsLowest: when the parts are admissible and
      agree, the lowest index no part carries is reported missing. */
  lemma MissingReported(parts: seq<string>, k: nat)
    requires GetAndVerifyHeaders(parts).Ok?
    requires AllAdmissible(GetAndVerifyHeaders(parts).value.numParts, parts) && Agreeing(parts)
    requires k < GetAndVerifyHeaders(parts).value.numParts
    requires !Claimed(parts, k) && forall j: nat :: j < k ==> Claimed(parts, j)
    ensures JoinQrs(parts) == Err(MissingPart(k))
  {
    var n := GetAndVerifyHeaders(parts).value.numParts;
    FoldSpec(Blank(n), parts);
    var ordered := Fold(Blank(n), parts).value;
    forall j | 0 <= j < k
      ensures ordered[j] != ""
    {
      assert Claimed(parts, j);
      var p :| p in parts && Indexed(p) && Index(p) == j;
    }
    assert FirstMissing(ordered) == Some(k);
  }

  /** A batch that passes every check but whose payloads fail to decode
      reports the decoder's error. */
  lemma DecodeFailureReported(parts: seq<string>, slots: seq<string>, e: Decode.DecodeError)
    requires GetAndVerifyHeaders(parts).Ok?
    requires |slots| == GetAndVerifyHeaders(parts).value.numParts
    requires AllAdmissible(|slots|, parts) && Agreeing(parts) && Complete(parts, |slots|)
    requires Arranges(parts, slots)
    requires Decode.DecodeOrderedParts(slots, GetAndVerifyHeaders(parts).value.encoding) == Err(e)
    ensures JoinQrs(parts) == Err(DecodeError(e))
  {
    var n := |slots|;
    FoldSpec(Blank(n), parts);
    var ordered := Fold(Blank(n), parts).value;
    ArrangementUnique(parts, ordered, slots);
    forall k | 0 <= k < n
      ensures slots[k] != ""
    {
      assert Claimed(parts, k);
      var p :| p in parts && Indexed(p) && Index(p) == k;
    }
  }

  /** Conversely, a decode error is reported only for a batch that passed
      every other check, and it is the decoder's error on the payloads in
      index order. */
  lemma DecodeFailureLocated(parts: seq<string>, slots: seq<string>, e: Decode.DecodeError)
    requires JoinQrs(parts) == Err(DecodeError(e))
    requires GetAndVerifyHeaders(parts).Ok?
    requires |slots| == GetAndVerifyHeaders(parts).value.numParts && Arranges(parts, slots)
    ensures AllAdmissible(|slots|, parts) && Agreeing(parts) && Complete(parts, |slots|)
    ensures Decode.DecodeOrderedParts(slots, GetAndVerifyHeaders(parts).value.encoding) == Err(e)
  {
    var n := |slots|;
    FoldSpec(Blank(n), parts);
    var ordered := Fold(Blank(n), parts).value;
    forall k: nat | k < n
      ensures Claimed(parts, k)
    {
    }
    ArrangementUnique(parts, ordered, slots);
  }

  /** A batch with no data at all, or only empty strings, is `Empty`. */
  lemma EmptyBatch(parts: seq<string>)
    requires forall i :: 0 <= i < |parts| ==> parts[i] == ""
    ensures JoinQrs(parts) == Err(Empty) && TryFromParts(parts) == Err(Empty)
  {
  }

  /** The header check of the source's own unit test: empty strings around
      three copies of `B$ZU0801` give a Zlib, Unicode-text, 8-part header. */
  lemma VerifiesRepeatedHeader()
    requires Consts.HeaderLength == 8
    ensures GetAndVerifyHeaders(["", "B$ZU0801", "B$ZU0801", "B$ZU0801", ""]) ==
      Ok(Headers.Header(Encodings.Zlib, FileTypes.UnicodeText, 8))
  {
    var parts := ["", "B$ZU0801", "B$ZU0801", "B$ZU0801", ""];
    assert FirstNonEmpty(parts) == Some(1) by {
      assert FirstNonEmpty(parts[1..]) == Some(0);
    }
    Headers.ParsesZlibUnicodeEight("01");
    assert "B$ZU08" + "01" == "B$ZU0801";
  }

  /** The same test with a different part count in the middle: conflicting. */
  lemma CatchesConflictingHeaders()
    requires Consts.HeaderLength == 8
    ensures GetAndVerifyHeaders(["", "B$ZU0801", "B$ZU0902", "B$ZU0803", ""]) == Err(ConflictingHeaders)
  {
    var parts := ["", "B$ZU0801", "B$ZU0902", "B$ZU0803", ""];
    assert FirstNonEmpty(parts) == Some(1) by {
      assert FirstNonEmpty(parts[1..]) == Some(0);
    }
    Headers.ParsesZlibUnicodeEight("01");
    assert "B$ZU08" + "01" == "B$ZU0801";
    assert !SameHeader(parts[2], parts[1]) by {
      assert parts[2][..6][5] == parts[2][5] != parts[1][5] == parts[1][..6][5];
    }
  }
}

=== FILE: legacy.dfy ===
/** The older sub-crate under bbqr/src: a two-encoding tag table, a header
    parser with a hard-coded six-character minimum, and the header check of
    its unfinished joiner. */
module LegacyEncodings {
  import opened Wrappers
  import Encodings

  /** The legacy crate knows only hex and Zlib. */
  datatype Encoding = Hex | Zlib

  function Tag(e: Encoding): char
  {
    match e
    case Hex => 'H'
    case Zlib => 'Z'
  }

  /** The encoding of the newer crate with the same tag. */
  function Modern(e: Encoding): (m: Encodings.Encoding)
    ensures Encodings.Tag(m) == Tag(e) && m != Encodings.Base32
  {
    match e
    case Hex => Encodings.Hex
    case Zlib => Encodings.Zlib
  }

  /** `Encoding::from_byte` of bbqr/src/encoding.rs: only `H` and `Z`. */
  function FromByte(c: char): (r: Option<Encoding>)
    ensures forall e :: r == Some(e) <==> c == Tag(e)
  {
    match c
    case 'H' => Some(Hex)
    case 'Z' => Some(Zlib)
    case _ => None
  }

  function IsKnownEncoding(c: char): (r: bool)
    ensures r <==> FromByte(c).Some?
    ensures r <==> c in "HZ"
  {
    FromByte(c).Some?
  }

  /** The legacy table is the newer one without Base32: the same tags name
      the same encodings, and `2` is rejected. */
  lemma AgreesWithModern(c: char)
    ensures FromByte(c).Some? <==> Encodings.FromByte(c).Some? && Encodings.FromByte(c) != Some(Encodings.Base32)
    ensures FromByte(c).Some? ==> Encodings.FromByte(c) == Some(Modern(FromByte(c).value))
  {
  }
}

module LegacyHeaders {
  import opened Wrappers
  import FileTypes
  import Radix36
  import LegacyEncodings

  /** The shortest text the legacy parser reads: six characters. */
  const MinLength: nat := 6

  datatype Header = Header(encoding: LegacyEncodings.Encoding, fileType: FileTypes.FileType, numParts: nat)

  /** As in the newer crate, except that the size error carries no length. */
  datatype HeaderParseError =
    | Empty
    | InvalidEncoding(encodingByte: char)
    | InvalidFileType(fileTypeByte: char)
    | InvalidFixedHeader
    | InvalidHeaderSize
    | InvalidHeaderParts(message: string)

  /** `Header::try_from_str` of bbqr/src/header.rs: the same check order as
      the newer parser with a fixed minimum of six characters. */
  function TryFromStr(s: string): (r: Result<Header, HeaderParseError>)
    ensures |s| == 0 <==> r == Err(Empty)
    ensures 0 < |s| < MinLength <==> r == Err(InvalidHeaderSize)
    ensures |s| >= MinLength ==> (s[..2] != "B$" <==> r == Err(InvalidFixedHeader))
    ensures |s| >= MinLength && s[..2] == "B$" ==>
      (LegacyEncodings.FromByte(s[2]).None? <==> r == Err(InvalidEncoding(s[2])))
    ensures |s| >= MinLength && s[..2] == "B$" && LegacyEncodings.FromByte(s[2]).Some? ==>
      (FileTypes.FromByte(s[3]).None? <==> r == Err(InvalidFileType(s[3])))
    ensures (|s| >= MinLength && s[..2] == "B$"
      && LegacyEncodings.FromByte(s[2]).Some? && FileTypes.FromByte(s[3]).Some?) ==>
      (Radix36.ParseUsize(s[4..6]).None? <==> r.Err? && r.error.InvalidHeaderParts?)
    ensures r.Ok? <==>
      && |s| >= MinLength && s[..2] == "B$"
      && LegacyEncodings.FromByte(s[2]).Some? && FileTypes.FromByte(s[3]).Some?
      && Radix36.ParseUsize(s[4..6]).Some?
    ensures r.Ok? ==>
      && LegacyEncodings.FromByte(s[2]) == Some(r.value.encoding)
      && FileTypes.FromByte(s[3]) == Some(r.value.fileType)
      && Radix36.ParseUsize(s[4..6]) == Some(r.value.numParts)
  {
    if |s| == 0 then Err(Empty)
    else if |s| < MinLength then Err(InvalidHeaderSize)
    else if s[..2] != "B$" then Err(InvalidFixedHeader)
    else match LegacyEncodings.FromByte(s[2])
      case None => Err(InvalidEncoding(s[2]))
      case Some(encoding) =>
        match FileTypes.FromByte(s[3])
        case None => Err(InvalidFileType(s[3]))
        case Some(fileType) =>
          match Radix36.ParseUsize(s[4..6])
          case None => Err(InvalidHeaderParts("Invalid number of parts: " + s[4..6]))
          case Some(numParts) => Ok(Header(encoding, fileType, numParts))
  }

  /** Only the first six characters decide the outcome, once there are at
      least six. */
  lemma PrefixDecides(s: string, t: string)
    requires |s| >= MinLength && |t| >= MinLength
    requires s[..6] == t[..6]
    ensures TryFromStr(s) == TryFromStr(t)
  {
    assert s[..2] == s[..6][..2] && t[..2] == t[..6][..2];
    assert s[2] == s[..6][2] && t[2] == t[..6][2];
    assert s[3] == s[..6][3] && t[3] == t[..6][3];
    assert s[4..6] == s[..6][4..6] && t[4..6] == t[..6][4..6];
  }

  /** A header only six characters long is accepted here. */
  lemma AcceptsSixCharacters()
    ensures TryFromStr("B$ZU08") == Ok(Header(LegacyEncodings.Zlib, FileTypes.UnicodeText, 8))
  {
    var s := "B$ZU08";
    assert s[..2] == "B$" && s[2] == 'Z' && s[3] == 'U' && s[4..6] == "08";
    assert "08"[1..][..0] == "08"[..1][..0];
  }

  /** The Base32 tag is an invalid encoding here. */
  lemma RejectsBase32(rest: string)
    requires |rest| >= 2
    ensures TryFromStr("B$2U" + rest) == Err(InvalidEncoding('2'))
  {
    var s := "B$2U" + rest;
    assert s[..2] == "B$" && s[2] == '2';
  }
}

module LegacyJoin {
  import opened Wrappers
  import LegacyEncodings
  import FileTypes
  import LegacyHeaders
  import Join

  // The search for the first non-empty part is the newer joiner's
  // Join.FirstNonEmpty: both crates find it the same way.

  datatype JoinError =
    | Empty
    | ConflictingHeaders
    | HeaderParseError(headerError: LegacyHeaders.HeaderParseError)

  /** A part that passes the legacy comparison: empty, or at least six
      characters whose first six are the first header's. */
  predicate SameHeader(p: string, first: string)
    requires |first| >= LegacyHeaders.MinLength
  {
    p == "" || (|p| >= LegacyHeaders.MinLength && p[..6] == first[..6])
  }

  function RestAgree(rest: seq<string>, first: string): (r: bool)
    requires |first| >= LegacyHeaders.MinLength
    ensures r <==> forall i :: 0 <= i < |rest| ==> SameHeader(rest[i], first)
  {
    |rest| == 0 || (SameHeader(rest[0], first) && RestAgree(rest[1..], first))
  }

  /** `verify_header` of bbqr/src/join.rs. */
  function VerifyHeader(parts: seq<string>): (r: Result<LegacyHeaders.Header, JoinError>)
    ensures (forall i :: 0 <= i < |parts| ==> parts[i] == "") <==> r == Err(Empty)
    ensures Join.FirstNonEmpty(parts).Some? && LegacyHeaders.TryFromStr(parts[Join.FirstNonEmpty(parts).value]).Err? ==>
      r == Err(HeaderParseError(LegacyHeaders.TryFromStr(parts[Join.FirstNonEmpty(parts).value]).error))
    ensures r.Ok? <==>
      && Join.FirstNonEmpty(parts).Some?
      && var first := parts[Join.FirstNonEmpty(parts).value];
      && LegacyHeaders.TryFromStr(first).Ok?
      && forall i :: 0 <= i < |parts| ==> SameHeader(parts[i], first)
    ensures r.Ok? ==> LegacyHeaders.TryFromStr(parts[Join.FirstNonEmpty(parts).value]) == Ok(r.value)
    ensures Join.FirstNonEmpty(parts).Some? ==>
      var first := parts[Join.FirstNonEmpty(parts).value];
      LegacyHeaders.TryFromStr(first).Ok? && !(forall i :: 0 <= i < |parts| ==> SameHeader(parts[i], first)) ==>
      r == Err(ConflictingHeaders)
  {
    if |parts| == 0 then Err(Empty)
    else match Join.FirstNonEmpty(parts)
      case None => Err(Empty)
      case Some(k) =>
        var first := parts[k];
        match LegacyHeaders.TryFromStr(first)
        case Err(e) => Err(HeaderParseError(e))
        case Ok(header) =>
          if RestAgree(parts[1..], first) then
            assert parts[0] == "" || k == 0;
            Ok(header)
          else
            assert !(forall i :: 0 <= i < |parts| ==> SameHeader(parts[i], first)) by {
              var j :| 0 <= j < |parts[1..]| && !SameHeader(parts[1..][j], first);
              assert parts[j + 1] == parts[1..][j];
            }
            Err(ConflictingHeaders)
  }

  /** The legacy crate's own unit test of the header check. */
  lemma VerifiesRepeatedHeader()
    ensures VerifyHeader(["", "B$ZU0801", "B$ZU0801", "B$ZU0801", ""]) ==
      Ok(LegacyHeaders.Header(LegacyEncodings.Zlib, FileTypes.UnicodeText, 8))
  {
    var parts := ["", "B$ZU0801", "B$ZU0801", "B$ZU0801", ""];
    assert Join.FirstNonEmpty(parts) == Some(1) by {
      assert Join.FirstNonEmpty(parts[1..]) == Some(0);
    }
    var s := parts[1];
    assert s[..2] == "B$" && s[2] == 'Z' && s[3] == 'U' && s[4..6] == "08";
    assert "08"[1..][..0] == "08"[..1][..0];
  }

  lemma CatchesEmpty()
    ensures VerifyHeader(["", "", "", "", ""]) == Err(Empty)
  {
  }

  lemma CatchesConflictingHeaders()
    ensures VerifyHeader(["", "B$ZU0801", "B$ZU0902", "B$ZU0803", ""]) == Err(ConflictingHeaders)
  {
    var parts := ["", "B$ZU0801", "B$ZU0902", "B$ZU0803", ""];
    assert Join.FirstNonEmpty(parts) == Some(1) by {
      assert Join.FirstNonEmpty(parts[1..]) == Some(0);
    }
    var s := parts[1];
    assert s[..2] == "B$" && s[2] == 'Z' && s[3] == 'U' && s[4..6] == "08";
    assert "08"[1..][..0] == "08"[..1][..0];
    assert !SameHeader(parts[2], parts[1]) by {
      assert parts[2][..6][5] == parts[2][5] != parts[1][5] == parts[1][..6][5];
    }
  }
}

/** How the legacy parser and header check relate to the newer ones. */
module LegacyCompat {
  import opened Wrappers
  import Encodings
  import Consts
  import Headers
  import Join
  import LegacyEncodings
  import LegacyHeaders
  import LegacyJoin

  /** On text long enough for the newer parser, the legacy parser accepts
      exactly the headers the newer one accepts minus Base32, and reads the
      same fields. */
  lemma ParsersAgree(s: string)
    requires |s| >= Consts.HeaderLength
    ensures LegacyHeaders.TryFromStr(s).Ok? <==>
      Headers.TryFromStr(s).Ok? && Headers.TryFromStr(s).value.encoding != Encodings.Base32
    ensures LegacyHeaders.TryFromStr(s).Ok? ==>
      var legacy := LegacyHeaders.TryFromStr(s).value;
      Headers.TryFromStr(s) == Ok(Headers.Header(LegacyEncodings.Modern(legacy.encoding), legacy.fileType, legacy.numParts))
  {
    LegacyEncodings.AgreesWithModern(s[2]);
  }

  /** Six characters are enough for the legacy parser but not for the newer
      one. */
  lemma OnlyLegacyAcceptsSix()
    requires Consts.HeaderLength == 8
    ensures LegacyHeaders.TryFromStr("B$ZU08").Ok?
    ensures Headers.TryFromStr("B$ZU08") == Err(Headers.InvalidHeaderSize(6))
  {
    LegacyHeaders.AcceptsSixCharacters();
  }

  /** A batch the newer header check accepts with a legacy encoding passes
      the legacy check with the same header. */
  lemma HeaderChecksAgree(parts: seq<string>)
    requires Join.GetAndVerifyHeaders(parts).Ok?
    requires Join.GetAndVerifyHeaders(parts).value.encoding != Encodings.Base32
    ensures LegacyJoin.VerifyHeader(parts).Ok?
    ensures var legacy := LegacyJoin.VerifyHeader(parts).value;
      Join.GetAndVerifyHeaders(parts) ==
        Ok(Headers.Header(LegacyEncodings.Modern(legacy.encoding), legacy.fileType, legacy.numParts))
  {
    var k := Join.FirstNonEmpty(parts).value;
    var first := parts[k];
    ParsersAgree(first);
    forall i | 0 <= i < |parts|
      ensures LegacyJoin.SameHeader(parts[i], first)
    {
      assert Join.SameHeader(parts[i], first);
    }
  }
}

=== FILE: loopback.dfy ===
/** The split-then-join round trip. The pieces of the system whose code is
    not part of this model (the Base32 codecs, the compressor, the planner,
    the header-length constant) enter as named hypotheses. Under them,
    joining the parts of a Hex split, or of a Base32 or Zlib split whose
    Base32 text carries a whole number of 5-byte blocks, returns the
    original bytes, encoding and content type. For other Base32 text the
    padded decoder loses the last part, and the unpadded one would not. */
module Loopback {
  import opened Wrappers
  import opened Encodings
  import FileTypes
  import Base16
  import Codecs
  import Radix36
  import Consts
  import Headers
  import Encode
  import Qr
  import Slicing
  import Decode
  import Split
  import Join

  /** dec reads back what enc wrote for b. */
  ghost predicate Inverts(enc: seq<byte> -> string, dec: string -> Option<seq<byte>>, b: seq<byte>)
  {
    dec(enc(b)) == Some(b)
  }

  /** The text of b is ceil(C*|b|/B) characters long. */
  ghost predicate Measures(enc: seq<byte> -> string, B: nat, C: nat, b: seq<byte>)
    requires 0 < B
  {
    |enc(b)| == (C * |b| + B - 1) / B
  }

  /** Encoding b is encoding its first m bytes, then the rest. */
  ghost predicate SplitsAt(enc: seq<byte> -> string, b: seq<byte>, m: nat)
  {
    m <= |b| ==> enc(b[..m]) + enc(b[m..]) == enc(b)
  }

  /** A block codec: every B input bytes become C characters, decoding
      inverts encoding on a whole number of blocks, and encoding cut at a
      multiple of B is concatenating the encodings of the pieces. Nothing is
      said of decoding the text of a partial block. */
  ghost predicate BlockCodec(enc: seq<byte> -> string, dec: string -> Option<seq<byte>>, B: nat, C: nat)
  {
    && 0 < B <= C
    && (forall b :: |b| % B == 0 ==> Inverts(enc, dec, b))
    && (forall b :: Measures(enc, B, C, b))
    && (forall b, m: nat :: m % B == 0 ==> SplitsAt(enc, b, m))
  }

  /** dec reads back what enc wrote for every input, partial blocks too. */
  ghost predicate Lossless(enc: seq<byte> -> string, dec: string -> Option<seq<byte>>)
  {
    forall b :: Inverts(enc, dec, b)
  }

  /** Upper-case hex is a lossless block codec of one byte to two
      characters. */
  lemma HexIsBlockCodec()
    ensures BlockCodec(Base16.Encode, Base16.Decode, 1, 2)
    ensures Lossless(Base16.Encode, Base16.Decode)
  {
    forall b: seq<byte>
      ensures Inverts(Base16.Encode, Base16.Decode, b)
    {
      Base16.DecodeEncode(b);
    }
    forall b: seq<byte>
      ensures Measures(Base16.Encode, 1, 2, b)
    {
      HexMeasures(b);
    }
    forall b: seq<byte>, m: nat | m % 1 == 0
      ensures SplitsAt(Base16.Encode, b, m)
    {
      HexSplits(b, m);
    }
  }

  lemma HexMeasures(b: seq<byte>)
    ensures Measures(Base16.Encode, 1, 2, b)
  {
    assert |Base16.Encode(b)| == 2 * |b|;
  }

  lemma HexSplits(b: seq<byte>, m: nat)
    ensures SplitsAt(Base16.Encode, b, m)
  {
    if m <= |b| {
      var lo, hi := b[..m], b[m..];
      assert lo + hi == b;
      Base16.EncodeAppend(lo, hi);
    }
  }

  lemma ProductStep(a: nat, d: nat)
    ensures (a + 1) * d == a * d + d
  {
  }

  lemma ProductMono(a: nat, b: nat, d: nat)
    requires a <= b
    ensures a * d <= b * d
  {
  }

  lemma DivOfMultiple(x: nat, B: nat, r: nat)
    requires 0 < B && r < B
    ensures (x * B + r) / B == x
  {
    var z := (x * B + r) / B;
    var s := (x * B + r) % B;
    assert x * B + r == z * B + s;
    if z < x {
      ProductMono(z + 1, x, B);
      ProductStep(z, B);
    } else if z > x {
      ProductMono(x + 1, z, B);
      ProductStep(x, B);
    }
  }

  lemma DivBelow(x: nat, B: nat, y: nat)
    requires 0 < B && x < y * B
    ensures x / B < y
  {
    var z := x / B;
    assert x == z * B + x % B;
    if z >= y {
      ProductMono(y, z, B);
    }
  }

  /** Where a cut of the text at j, a multiple of C, falls in the input: at
      m = j/C*B bytes, which is within the input and encodes to exactly j
      characters. */
  lemma Cut(B: nat, C: nat, L: nat, j: nat) returns (m: nat)
    requires 0 < B <= C && j % C == 0
    requires j <= (C * L + B - 1) / B
    ensures m % B == 0 && m <= L && (C * m + B - 1) / B == j
  {
    var q := j / C;
    assert j == q * C;
    m := q * B;
    assert m % B == 0 by {
      DivOfMultiple(q, B, 0);
    }
    assert C * m == j * B;
    DivOfMultiple(j, B, B - 1);
    if m > L {
      ProductMono(L + 1, m, C);
      ProductStep(L, C);
      assert C * L + B - 1 < j * B;
      DivBelow(C * L + B - 1, B, j);
    }
  }

  lemma {:induction false} MultipleOfMultiple(k: nat, d: nat, C: nat)
    requires 0 < C && d % C == 0
    ensures Slicing.Mul(k, d) % C == 0
  {
    Slicing.MulIsProduct(k, d);
    var e := d / C;
    assert d == e * C;
    assert k * d == (k * e) * C;
    DivOfMultiple(k * e, C, 0);
  }

  /** What is left of a whole number of blocks after a whole number of
      blocks is a whole number of blocks. */
  lemma DiffOfMultiples(x: nat, y: nat, B: nat)
    requires 0 < B && y <= x && x % B == 0 && y % B == 0
    ensures (x - y) % B == 0
  {
    var p, q := x / B, y / B;
    assert x == p * B && y == q * B;
    assert x - y == (p - q) * B;
    DivOfMultiple(p - q, B, 0);
  }

  /** A cut of the text at a multiple of C splits it into the encodings of
      a prefix of whole blocks and the suffix of the input. */
  lemma CutEncoding(enc: seq<byte> -> string, dec: string -> Option<seq<byte>>,
                    B: nat, C: nat, b: seq<byte>, j: nat) returns (m: nat)
    requires BlockCodec(enc, dec, B, C)
    requires j % C == 0 && j <= |enc(b)|
    ensures m <= |b| && m % B == 0
    ensures enc(b)[..j] == enc(b[..m]) && enc(b)[j..] == enc(b[m..])
  {
    assert Measures(enc, B, C, b);
    m := Cut(B, C, |b|, j);
    assert SplitsAt(enc, b, m);
    assert Measures(enc, B, C, b[..m]);
  }

  /** Cutting the encoding of b into payloads of width d (a multiple of C
      when there is more than one payload) and decoding each payload on its
      own gives b back, when b is a whole number of blocks or the codec is
      lossless. */
  lemma {:induction false} BlockDecode(enc: seq<byte> -> string, dec: string -> Option<seq<byte>>,
                                       B: nat, C: nat, b: seq<byte>, d: nat, n: nat)
    requires BlockCodec(enc, dec, B, C) && Slicing.Covers(enc(b), d, n)
    requires n == 1 || d % C == 0
    requires |b| % B == 0 || Lossless(enc, dec)
    ensures Decode.FlatDecode(dec, Slicing.Payloads(enc(b), d, n)) == b
    decreases n
  {
    if n == 1 {
      SingleDecodes(enc, dec, B, C, b, d);
    } else {
      var m := CutBeforeLast(enc, dec, B, C, b, d, n);
      BlockDecode(enc, dec, B, C, b[..m], d, n - 1);
      DecodeLast(enc, dec, B, C, b, d, n, m);
    }
  }

  /** A text that fits in one payload decodes back to the input. */
  lemma SingleDecodes(enc: seq<byte> -> string, dec: string -> Option<seq<byte>>,
                      B: nat, C: nat, b: seq<byte>, d: nat)
    requires BlockCodec(enc, dec, B, C)
    requires |enc(b)| <= d
    requires |b| % B == 0 || Lossless(enc, dec)
    ensures Decode.FlatDecode(dec, Slicing.Payloads(enc(b), d, 1)) == b
  {
    var ps := Slicing.Payloads(enc(b), d, 1);
    assert ps[..0] == [];
    assert ps[0] == enc(b);
    assert Inverts(enc, dec, b);
  }

  /** The text of b cut at j is the text of its first m bytes followed by
      the text of the rest. */
  ghost predicate CutAt(enc: seq<byte> -> string, b: seq<byte>, j: nat, m: nat)
  {
    && m <= |b| && j <= |enc(b)|
    && enc(b)[..j] == enc(b[..m]) && enc(b)[j..] == enc(b[m..])
  }

  /** Where the last of n >= 2 payloads starts in the input: the text before
      it encodes a prefix of m bytes that n-1 payloads cover, the text from
      it on encodes the rest. */
  lemma CutBeforeLast(enc: seq<byte> -> string, dec: string -> Option<seq<byte>>,
                      B: nat, C: nat, b: seq<byte>, d: nat, n: nat) returns (m: nat)
    requires BlockCodec(enc, dec, B, C) && Slicing.Covers(enc(b), d, n)
    requires n >= 2 && d % C == 0
    ensures CutAt(enc, b, Slicing.Mul(n - 1, d), m) && Slicing.Covers(enc(b[..m]), d, n - 1)
    ensures m % B == 0
  {
    MultipleOfMultiple(n - 1, d, C);
    m := CutEncoding(enc, dec, B, C, b, Slicing.Mul(n - 1, d));
  }

  /** The step of BlockDecode: once the payloads before the last decode to
      the prefix, all of them decode to b. */
  lemma DecodeLast(enc: seq<byte> -> string, dec: string -> Option<seq<byte>>,
                   B: nat, C: nat, b: seq<byte>, d: nat, n: nat, m: nat)
    requires BlockCodec(enc, dec, B, C) && Slicing.Covers(enc(b), d, n) && n >= 2
    requires CutAt(enc, b, Slicing.Mul(n - 1, d), m) && Slicing.Covers(enc(b[..m]), d, n - 1)
    requires m % B == 0 && (|b| % B == 0 || Lossless(enc, dec))
    requires Decode.FlatDecode(dec, Slicing.Payloads(enc(b[..m]), d, n - 1)) == b[..m]
    ensures Decode.FlatDecode(dec, Slicing.Payloads(enc(b), d, n)) == b
  {
    var t := enc(b);
    var ps := Slicing.Payloads(t, d, n);
    Slicing.PayloadsFront(t, d, n, enc(b[..m]));
    Slicing.LastPayload(t, d, n);
    TailInverts(enc, dec, B, C, b, m);
    LastDecodes(dec, ps, b, m);
  }

  /** The input after a whole number of blocks decodes back from its text. */
  lemma TailInverts(enc: seq<byte> -> string, dec: string -> Option<seq<byte>>,
                    B: nat, C: nat, b: seq<byte>, m: nat)
    requires BlockCodec(enc, dec, B, C)
    requires m <= |b| && m % B == 0 && (|b| % B == 0 || Lossless(enc, dec))
    ensures Inverts(enc, dec, b[m..])
  {
    if !Lossless(enc, dec) {
      DiffOfMultiples(|b|, m, B);
      assert |b[m..]| % B == 0;
    }
  }

  /** Payloads whose front decodes to the first m bytes of b and whose last
      one decodes to the rest decode to b. */
  lemma LastDecodes(dec: string -> Option<seq<byte>>, ps: seq<string>, b: seq<byte>, m: nat)
    requires |ps| >= 1 && m <= |b|
    requires Decode.FlatDecode(dec, ps[..|ps| - 1]) == b[..m]
    requires dec(ps[|ps| - 1]) == Some(b[m..])
    ensures Decode.FlatDecode(dec, ps) == b
  {
    assert b[..m] + b[m..] == b;
  }

  /** Hypothesis on the Base32 pair the source uses: the unpadded encoder
      and the padded decoder behave as a block codec of 5 bytes to 8
      characters. The padded decoder reads back the text of a whole number
      of 5-byte blocks, which needs no padding; nothing is assumed about the
      text of a partial block. */
  ghost predicate Base32RoundTrips()
  {
    BlockCodec(Codecs.Base32NoPadEncode, Codecs.Base32Decode, 5, 8)
  }

  /** Hypothesis on the padded decoder: text that is not a whole number of
      8-character blocks is rejected, since its padding is missing. */
  ghost predicate PaddedRejectsPartialBlocks()
  {
    forall t :: |t| % 8 != 0 ==> Codecs.Base32Decode(t).None?
  }

  /** Hypothesis on the unpadded pair: a lossless block codec of 5 bytes to
      8 characters. */
  ghost predicate UnpaddedRoundTrips()
  {
    && BlockCodec(Codecs.Base32NoPadEncode, Codecs.Base32NoPadDecode, 5, 8)
    && Lossless(Codecs.Base32NoPadEncode, Codecs.Base32NoPadDecode)
  }

  /** Hypothesis on the compressor: inflating what deflate produced gives
      the input back. */
  ghost predicate InflateInvertsDeflate()
  {
    forall b :: Codecs.Deflate(b).Done? ==> Codecs.Inflate(Codecs.Deflate(b).bytes) == Codecs.Done(b)
  }

  /** A plan whose last part is reached by the text and whose part width is
      a multiple of the encoding's split modulus when there are several
      parts. */
  predicate PlanFits(e: Encode.Encoded, q: Qr.QrsNeeded)
  {
    && (q.count == 0 || Slicing.Mul(q.count - 1, q.dataPerQr) < |e.data|)
    && (q.count <= 1 || q.dataPerQr % Encode.SplitMod(e.encoding) == 0)
  }

  /** Hypothesis on the planner, whose code is not part of this model: every
      plan for non-empty text fits. */
  ghost predicate PlannerFits()
  {
    forall e: Encode.Encoded, v :: |e.data| > 0 ==> PlanFits(e, Qr.NumberOfQrsNeeded(e, v))
  }

  /** Hypothesis on the constants: headers are eight characters and the part
      ceiling is within two base-36 digits. */
  predicate ConstantsAsPublished()
  {
    Consts.HeaderLength == 8 && Consts.MaxParts <= Radix36.MaxTwoDigits
  }

  /** The bytes whose Base32 text an encoding other than Hex carries: the
      compressed bytes for Zlib, the input itself for Base32. */
  function Base32Input(bytes: seq<byte>, encoding: Encoding): seq<byte>
  {
    if encoding == Zlib && Codecs.Deflate(bytes).Done? then Codecs.Deflate(bytes).bytes else bytes
  }

  /** What the round trip needs for text of this encoding. Hex needs
      nothing. Base32 and Zlib need the codec hypotheses and a Base32 text of
      a non-zero whole number of 5-byte blocks: the padded decoder is not
      assumed to read a partial block, and PartialBlockDropped shows what
      happens when it does not. */
  ghost predicate Decodable(bytes: seq<byte>, encoding: Encoding)
  {
    || encoding == Hex
    || (&& Base32RoundTrips() && InflateInvertsDeflate()
        && |Base32Input(bytes, encoding)| > 0 && |Base32Input(bytes, encoding)| % 5 == 0)
  }

  /** Decoding the payloads of an encoding, cut at a multiple of the split
      modulus, gives the input back. */
  lemma EncodedDecodes(bytes: seq<byte>, requested: Encoding, e: Encode.Encoded, d: nat, n: nat)
    requires Decodable(bytes, e.encoding)
    requires Encode.TryNewFromData(bytes, requested) == Ok(e)
    requires Slicing.Covers(e.data, d, n)
    requires n == 1 || d % Encode.SplitMod(e.encoding) == 0
    ensures Decode.DecodeOrderedParts(Slicing.Payloads(e.data, d, n), e.encoding) == Ok(bytes)
  {
    match e.encoding
    case Hex =>
      HexIsBlockCodec();
      BlockDecode(Base16.Encode, Base16.Decode, 1, 2, bytes, d, n);
    case Base32 =>
      BlockDecode(Codecs.Base32NoPadEncode, Codecs.Base32Decode, 5, 8, bytes, d, n);
    case Zlib =>
      var compressed := Codecs.Deflate(bytes).bytes;
      BlockDecode(Codecs.Base32NoPadEncode, Codecs.Base32Decode, 5, 8, compressed, d, n);
  }

  /** With the unpadded decoder, the payloads of an encoding cut at a
      multiple of the split modulus decode back to the input whatever its
      length. */
  lemma UnpaddedEncodedDecodes(bytes: seq<byte>, requested: Encoding, e: Encode.Encoded, d: nat, n: nat)
    requires UnpaddedRoundTrips() && InflateInvertsDeflate()
    requires Encode.TryNewFromData(bytes, requested) == Ok(e)
    requires Slicing.Covers(e.data, d, n)
    requires n == 1 || d % Encode.SplitMod(e.encoding) == 0
    ensures Decode.DecodeOrderedPartsUnpadded(Slicing.Payloads(e.data, d, n), e.encoding) == Ok(bytes)
  {
    match e.encoding
    case Hex =>
      HexIsBlockCodec();
      BlockDecode(Base16.Encode, Base16.Decode, 1, 2, bytes, d, n);
    case Base32 =>
      BlockDecode(Codecs.Base32NoPadEncode, Codecs.Base32NoPadDecode, 5, 8, bytes, d, n);
    case Zlib =>
      var compressed := Codecs.Deflate(bytes).bytes;
      BlockDecode(Codecs.Base32NoPadEncode, Codecs.Base32NoPadDecode, 5, 8, compressed, d, n);
  }

  /** Base32 text of a partial block is never a whole number of 8-character
      blocks: r bytes, r not a multiple of 5, give ceil(8r/5) characters,
      which is 2, 4, 5 or 7 more than a multiple of 8. */
  lemma PartialQuantum(r: nat)
    requires r % 5 != 0
    ensures ((8 * r + 5 - 1) / 5) % 8 != 0
  {
    var q, s := r / 5, r % 5;
    assert r == 5 * q + s;
    var k := if s == 1 then 2 else if s == 2 then 4 else if s == 3 then 5 else 7;
    assert 8 * r + 5 - 1 == (8 * q + k) * 5 + (8 * s + 4 - 5 * k);
    DivOfMultiple(8 * q + k, 5, 8 * s + 4 - 5 * k);
    DivOfMultiple(q, 8, k);
  }

  /** As the source is written, when the input to the Base32 text is not a
      whole number of 5-byte blocks, the last payload does not decode and
      drops out: the payloads decode to a proper prefix of the input, whole
      blocks only, and no error is raised. */
  lemma {:induction false} Base32TailLost(b: seq<byte>, d: nat, n: nat) returns (m: nat)
    requires Base32RoundTrips() && PaddedRejectsPartialBlocks()
    requires Slicing.Covers(Codecs.Base32NoPadEncode(b), d, n)
    requires n == 1 || d % 8 == 0
    requires |b| % 5 != 0
    ensures m < |b| && m % 5 == 0
    ensures Decode.FlatDecode(Codecs.Base32Decode, Slicing.Payloads(Codecs.Base32NoPadEncode(b), d, n)) == b[..m]
  {
    var enc, dec := Codecs.Base32NoPadEncode, Codecs.Base32Decode;
    if n == 1 {
      m := 0;
      LastRejected(b, m);
      var ps := Slicing.Payloads(enc(b), d, 1);
      assert ps[0] == enc(b);
    } else {
      m := CutBeforeLast(enc, dec, 5, 8, b, d, n);
      BlockDecode(enc, dec, 5, 8, b[..m], d, n - 1);
      var t := enc(b);
      var ps := Slicing.Payloads(t, d, n);
      Slicing.PayloadsFront(t, d, n, enc(b[..m]));
      Slicing.LastPayload(t, d, n);
      LastRejected(b, m);
      assert ps == ps[..n - 1] + [ps[n - 1]];
      assert Decode.FlatDecode(dec, ps) == Decode.FlatDecode(dec, ps[..n - 1]);
    }
  }

  /** The text of what follows a whole number of blocks of an input that is
      not itself a whole number of blocks is rejected by the padded decoder. */
  lemma LastRejected(b: seq<byte>, m: nat)
    requires Base32RoundTrips() && PaddedRejectsPartialBlocks()
    requires m <= |b| && m % 5 == 0 && |b| % 5 != 0
    ensures m < |b|
    ensures Codecs.Base32Decode(Codecs.Base32NoPadEncode(b[m..])).None?
  {
    var rest := b[m..];
    PartialAfterWhole(|b|, m, 5);
    assert Measures(Codecs.Base32NoPadEncode, 5, 8, rest);
    PartialQuantum(|rest|);
  }

  /** What is left of a partial number of blocks after a whole number of
      blocks is a partial block or more, never nothing. */
  lemma PartialAfterWhole(x: nat, y: nat, B: nat)
    requires 0 < B && y <= x && y % B == 0 && x % B != 0
    ensures y < x && (x - y) % B == x % B
  {
    var p, q, s := x / B, y / B, x % B;
    assert y == q * B && x == p * B + s;
    if p < q {
      ProductMono(p + 1, q, B);
      assert false;
    }
    assert x - y == (p - q) * B + s;
    DivOfMultiple(p - q, B, s);
  }

  /** The shape of part i: the rendered header, an index that parses back to
      i, then payload i. */
  lemma PartShape(h: Headers.Header, payloads: seq<string>, i: nat)
    requires h.numParts <= Radix36.MaxTwoDigits && |payloads| <= Radix36.MaxTwoDigits
    requires i < |payloads|
    ensures var p := Split.Parts(Headers.ToText(h), payloads)[i];
      && |p| >= Join.DataStart
      && p[..Join.IndexStart] == Headers.ToText(h)
      && Join.Indexed(p) && Join.Index(p) == i && Join.Data(p) == payloads[i]
  {
    var header := Headers.ToText(h);
    assert Headers.RendersHeader(Headers.ToText, h);
    assert |header| == 6;
    Headers.IndexParses(i);
    var index := Headers.PaddedBase36(i);
    var p := Split.Parts(header, payloads)[i];
    assert p == header + index + payloads[i];
    assert p[6..8] == index;
    assert p[..6] == header;
  }

  /** Part p is the i-th of a batch with header h and payloads slots: it
      starts with the rendered header, carries index i and payload i, and
      that payload is not empty. */
  predicate LaidOut(p: string, h: Headers.Header, slots: seq<string>, i: nat)
  {
    && i < |slots| && |p| >= Join.DataStart && p[..Join.IndexStart] == Headers.ToText(h)
    && Join.Indexed(p) && Join.Index(p) == i && Join.Data(p) == slots[i] != ""
  }

  /** Every part of the batch is laid out. */
  predicate AllLaidOut(parts: seq<string>, h: Headers.Header, slots: seq<string>)
  {
    |parts| == |slots| && forall i :: 0 <= i < |parts| ==> LaidOut(parts[i], h, slots, i)
  }

  /** Prefixing header and index to payloads that are all non-empty lays
      out every part. */
  lemma PartsLaidOut(h: Headers.Header, slots: seq<string>)
    requires 1 <= h.numParts <= Radix36.MaxTwoDigits && |slots| == h.numParts
    requires Slicing.NoneEmpty(slots)
    ensures AllLaidOut(Split.Parts(Headers.ToText(h), slots), h, slots)
  {
    var parts := Split.Parts(Headers.ToText(h), slots);
    forall i | 0 <= i < |slots|
      ensures LaidOut(parts[i], h, slots, i)
    {
      PartLaidOut(h, slots, i);
    }
  }

  /** Part i of such a batch is laid out. */
  lemma PartLaidOut(h: Headers.Header, slots: seq<string>, i: nat)
    requires 1 <= h.numParts <= Radix36.MaxTwoDigits && |slots| == h.numParts
    requires i < |slots| && slots[i] != ""
    ensures LaidOut(Split.Parts(Headers.ToText(h), slots)[i], h, slots, i)
  {
    PartShape(h, slots, i);
  }

  /** A laid-out batch is admissible, agreeing and complete, and its
      payloads are in index order. */
  lemma LaidOutConsistent(parts: seq<string>, h: Headers.Header, slots: seq<string>)
    requires AllLaidOut(parts, h, slots)
    ensures Join.AllAdmissible(|slots|, parts) && Join.Arranges(parts, slots)
    ensures Join.Agreeing(parts) && Join.Complete(parts, |slots|)
  {
    var n := |slots|;
    forall p | p in parts
      ensures p != "" && Join.Indexed(p) && Join.Index(p) < n && Join.Data(p) == slots[Join.Index(p)] != ""
    {
      var i :| 0 <= i < n && parts[i] == p;
      assert LaidOut(parts[i], h, slots, i);
    }
    forall p, q | p in parts && q in parts && Join.Indexed(p) && Join.Indexed(q) && Join.Index(p) == Join.Index(q)
      ensures Join.Data(p) == Join.Data(q)
    {
      var i :| 0 <= i < n && parts[i] == p;
      var j :| 0 <= j < n && parts[j] == q;
      assert LaidOut(parts[i], h, slots, i) && LaidOut(parts[j], h, slots, j);
    }
    forall k: nat | k < n
      ensures Join.Claimed(parts, k)
    {
      assert parts[k] in parts && LaidOut(parts[k], h, slots, k);
    }
  }

  /** A laid-out batch whose payloads decode joins to the decoded bytes,
      with the header's encoding and content type. */
  lemma LaidOutJoins(parts: seq<string>, h: Headers.Header, slots: seq<string>, bytes: seq<byte>)
    requires ConstantsAsPublished() && 1 <= h.numParts <= Radix36.MaxTwoDigits
    requires |slots| == h.numParts && AllLaidOut(parts, h, slots)
    requires Decode.DecodeOrderedParts(slots, h.encoding) == Ok(bytes)
    ensures Join.TryFromParts(parts) == Ok(Join.Joined(h.encoding, h.fileType, bytes))
  {
    forall i | 0 <= i < |parts|
      ensures |parts[i]| >= Join.DataStart && parts[i][..Join.IndexStart] == Headers.ToText(h)
    {
      assert LaidOut(parts[i], h, slots, i);
    }
    JoinedHeader(parts, h);
    LaidOutConsistent(parts, h, slots);
    Join.JoinComplete(parts, slots, bytes);
  }

  /** The parts a split lays out for header h around non-empty payloads are
      accepted by the joiner, which returns whatever the payloads decode
      to. */
  lemma PartsJoin(h: Headers.Header, slots: seq<string>, bytes: seq<byte>)
    requires ConstantsAsPublished() && 1 <= h.numParts <= Radix36.MaxTwoDigits
    requires |slots| == h.numParts && Slicing.NoneEmpty(slots)
    requires Decode.DecodeOrderedParts(slots, h.encoding) == Ok(bytes)
    ensures Join.TryFromParts(Split.Parts(Headers.ToText(h), slots)) ==
      Ok(Join.Joined(h.encoding, h.fileType, bytes))
  {
    PartsLaidOut(h, slots);
    LaidOutJoins(Split.Parts(Headers.ToText(h), slots), h, slots, bytes);
  }

  /** What a successful split is made of: the encoded text, the chosen plan,
      and the parts laid out around the payloads that plan cuts. */
  lemma SplitShape(bytes: seq<byte>, fileType: FileTypes.FileType, o: Split.SplitOptions)
    returns (e: Encode.Encoded, best: Qr.QrsNeeded, slots: seq<string>)
    requires Split.SplitQrs(bytes, fileType, o).Ok?
    ensures Encode.TryNewFromData(bytes, o.encoding) == Ok(e)
    ensures best == Qr.NumberOfQrsNeeded(e, best.version) && 1 <= best.count <= Consts.MaxParts
    ensures Slicing.Covers(e.data, best.dataPerQr, best.count)
    ensures slots == Slicing.Payloads(e.data, best.dataPerQr, best.count)
    ensures Split.SplitQrs(bytes, fileType, o) ==
      Ok(Split.Split(best.version, Split.Parts(Headers.ToText(Headers.Header(e.encoding, fileType, best.count)), slots),
                     e.encoding))
  {
    e := SplitEncodes(bytes, fileType, o);
    best, slots := EncodedShape(e, fileType, o);
  }

  /** A successful split encoded the data with valid options. */
  lemma SplitEncodes(bytes: seq<byte>, fileType: FileTypes.FileType, o: Split.SplitOptions)
    returns (e: Encode.Encoded)
    requires Split.SplitQrs(bytes, fileType, o).Ok?
    ensures Split.ValidOptions(o) && Encode.TryNewFromData(bytes, o.encoding) == Ok(e)
    ensures Split.SplitQrs(bytes, fileType, o) == Split.SplitEncoded(e, fileType, o)
  {
    e := Encode.TryNewFromData(bytes, o.encoding).value;
  }

  /** A successful split of encoded text chose a plan of the planner, and
      laid out the payloads that plan cuts. */
  lemma EncodedShape(e: Encode.Encoded, fileType: FileTypes.FileType, o: Split.SplitOptions)
    returns (best: Qr.QrsNeeded, slots: seq<string>)
    requires Split.ValidOptions(o) && Split.SplitEncoded(e, fileType, o).Ok?
    ensures best == Qr.NumberOfQrsNeeded(e, best.version) && 1 <= best.count <= Consts.MaxParts
    ensures Slicing.Covers(e.data, best.dataPerQr, best.count)
    ensures slots == Slicing.Payloads(e.data, best.dataPerQr, best.count)
    ensures Split.SplitEncoded(e, fileType, o) ==
      Ok(Split.Split(best.version, Split.Parts(Headers.ToText(Headers.Header(e.encoding, fileType, best.count)), slots),
                     e.encoding))
  {
    best := Split.FindBestVersion(e, o).value;
    slots := Slicing.Payloads(e.data, best.dataPerQr, best.count);
  }

  /** A plan the planner chose, with at least one part, leaves text for its
      last part and cuts at a multiple of the split modulus. */
  lemma PlannedFits(e: Encode.Encoded, plan: Qr.QrsNeeded)
    requires PlannerFits() && |e.data| > 0
    requires plan == Qr.NumberOfQrsNeeded(e, plan.version)
    requires Slicing.Covers(e.data, plan.dataPerQr, plan.count)
    ensures Slicing.CoversTightly(e.data, plan.dataPerQr, plan.count)
    ensures plan.count == 1 || plan.dataPerQr % Encode.SplitMod(e.encoding) == 0
  {
    assert PlanFits(e, Qr.NumberOfQrsNeeded(e, plan.version));
  }

  /** Under the constants and planner hypotheses, joining the parts of a
      successful split whose text is Decodable returns the original bytes,
      the split's encoding and the content type given to the splitter. */
  lemma SplitThenJoin(bytes: seq<byte>, fileType: FileTypes.FileType, o: Split.SplitOptions)
    requires ConstantsAsPublished() && PlannerFits()
    requires Split.SplitQrs(bytes, fileType, o).Ok?
    requires Decodable(bytes, Split.SplitQrs(bytes, fileType, o).value.encoding)
    ensures var split := Split.SplitQrs(bytes, fileType, o).value;
      Join.TryFromParts(split.parts) == Ok(Join.Joined(split.encoding, fileType, bytes))
  {
    var e, best, slots := SplitShape(bytes, fileType, o);
    EncodedNonEmpty(bytes, o.encoding, e);
    PlannedFits(e, best);
    EncodedDecodes(bytes, o.encoding, e, best.dataPerQr, best.count);
    Slicing.NoPayloadEmpty(e.data, best.dataPerQr, best.count);
    PartsJoin(Headers.Header(e.encoding, fileType, best.count), slots, bytes);
  }

  /** The text of a Decodable encoding is not empty. */
  lemma EncodedNonEmpty(bytes: seq<byte>, requested: Encoding, e: Encode.Encoded)
    requires Encode.TryNewFromData(bytes, requested) == Ok(e)
    requires Decodable(bytes, e.encoding)
    ensures |e.data| > 0
  {
    if e.encoding != Hex {
      assert Measures(Codecs.Base32NoPadEncode, 5, 8, Base32Input(bytes, e.encoding));
    }
  }

  /** Hex needs no hypothesis on the codecs: under the constants and planner
      hypotheses alone, joining the parts of a successful Hex split returns
      the original bytes as Hex of the given content type. */
  lemma HexSplitThenJoin(bytes: seq<byte>, fileType: FileTypes.FileType, o: Split.SplitOptions)
    requires ConstantsAsPublished() && PlannerFits()
    requires o.encoding == Hex && Split.SplitQrs(bytes, fileType, o).Ok?
    ensures var split := Split.SplitQrs(bytes, fileType, o).value;
      Join.TryFromParts(split.parts) == Ok(Join.Joined(Hex, fileType, bytes))
  {
    var e, best, slots := SplitShape(bytes, fileType, o);
    SplitThenJoin(bytes, fileType, o);
  }

  /** As the source is written, a Base32 split of an input that is not a
      whole number of 5-byte blocks joins without an error to a proper prefix
      of the input: the last part's text lacks its padding, the padded
      decoder rejects it, and `flat_map` drops it. */
  lemma PartialBlockDropped(bytes: seq<byte>, fileType: FileTypes.FileType, o: Split.SplitOptions)
    requires ConstantsAsPublished() && PlannerFits()
    requires Base32RoundTrips() && PaddedRejectsPartialBlocks()
    requires Split.SplitQrs(bytes, fileType, o).Ok? && Split.SplitQrs(bytes, fileType, o).value.encoding == Base32
    requires |bytes| % 5 != 0
    ensures var joined := Join.TryFromParts(Split.SplitQrs(bytes, fileType, o).value.parts);
      && joined.Ok? && joined.value.encoding == Base32 && joined.value.fileType == fileType
      && |joined.value.data| < |bytes| && joined.value.data == bytes[..|joined.value.data|]
  {
    var e, best, slots := SplitShape(bytes, fileType, o);
    assert Measures(Codecs.Base32NoPadEncode, 5, 8, bytes);
    PlannedFits(e, best);
    var m := Base32TailLost(bytes, best.dataPerQr, best.count);
    Slicing.NoPayloadEmpty(e.data, best.dataPerQr, best.count);
    PartsJoin(Headers.Header(Base32, fileType, best.count), slots, bytes[..m]);
  }

  /** Every part of a successful split opens with a header that parses
      back to the split's encoding, the given content type and the number
      of parts. */
  lemma SplitHeadersParse(bytes: seq<byte>, fileType: FileTypes.FileType, o: Split.SplitOptions)
    requires ConstantsAsPublished()
    requires Split.SplitQrs(bytes, fileType, o).Ok?
    ensures var split := Split.SplitQrs(bytes, fileType, o).value;
      && |split.parts| >= 1
      && forall i :: 0 <= i < |split.parts| ==>
        Headers.TryFromStr(split.parts[i]) == Ok(Headers.Header(split.encoding, fileType, |split.parts|))
  {
    var e, best, slots := SplitShape(bytes, fileType, o);
    var h := Headers.Header(e.encoding, fileType, best.count);
    var parts := Split.Parts(Headers.ToText(h), slots);
    forall i | 0 <= i < |parts|
      ensures Headers.TryFromStr(parts[i]) == Ok(h)
    {
      var p := PartText(h, slots, i);
      OpensWithHeader(h, p);
    }
  }

  /** Text at least eight characters long that opens with the rendered
      header parses back to that header. */
  lemma OpensWithHeader(h: Headers.Header, p: string)
    requires ConstantsAsPublished() && h.numParts <= Radix36.MaxTwoDigits
    requires |p| >= Join.DataStart && p[..Join.IndexStart] == Headers.ToText(h)
    ensures Headers.TryFromStr(p) == Ok(h)
  {
    assert p == Headers.ToText(h) + p[Join.IndexStart..];
    Headers.ParsesRendered(h, p[Join.IndexStart..]);
  }

  /** Part i of a batch laid out for header h, with its header in front. */
  lemma PartText(h: Headers.Header, slots: seq<string>, i: nat) returns (p: string)
    requires h.numParts <= Radix36.MaxTwoDigits && |slots| <= Radix36.MaxTwoDigits
    requires i < |slots|
    ensures p == Split.Parts(Headers.ToText(h), slots)[i]
    ensures |p| >= Join.DataStart && p[..Join.IndexStart] == Headers.ToText(h)
  {
    p := Split.Parts(Headers.ToText(h), slots)[i];
    PartShape(h, slots, i);
  }

  /** Parts that are non-empty, long enough and all start with the rendered
      header pass the header check with that header. */
  lemma JoinedHeader(parts: seq<string>, h: Headers.Header)
    requires ConstantsAsPublished() && h.numParts <= Radix36.MaxTwoDigits
    requires |parts| > 0
    requires forall i :: 0 <= i < |parts| ==>
      |parts[i]| >= Join.DataStart && parts[i][..Join.IndexStart] == Headers.ToText(h)
    ensures Join.GetAndVerifyHeaders(parts) == Ok(h)
  {
    var first := parts[0];
    assert Join.FirstNonEmpty(parts) == Some(0);
    assert first == Headers.ToText(h) + first[6..];
    Headers.ParsesRendered(h, first[6..]);
  }
}

=== FILE: qr.dfy ===
/** QR versions and the planner's candidates. The capacity table, the
    planner `Encoded::number_of_qrs_needed` and the ordering of its results
    are not part of this model: the planner and the ordering are uninterpreted
    constants carrying only the contracts the splitter relies on. */
module Qr {
  import Encode

  /** A QR version by index: 0 is V01, 39 is V40. */
  type Version = v: nat | v < 40

  const V01: Version := 0
  const V40: Version := 39

  /** A planner candidate: how many parts of how many characters each a given
      version needs. */
  datatype QrsNeeded = QrsNeeded(version: Version, count: nat, dataPerQr: nat)

  /** The three laws of a strict total order, one instance at a time. */
  predicate Irreflexive(less: (QrsNeeded, QrsNeeded) -> bool, a: QrsNeeded)
  {
    !less(a, a)
  }

  predicate Transitive(less: (QrsNeeded, QrsNeeded) -> bool, a: QrsNeeded, b: QrsNeeded, c: QrsNeeded)
  {
    less(a, b) && less(b, c) ==> less(a, c)
  }

  predicate Connected(less: (QrsNeeded, QrsNeeded) -> bool, a: QrsNeeded, b: QrsNeeded)
  {
    a != b ==> less(a, b) || less(b, a)
  }

  ghost predicate StrictTotalOrder(less: (QrsNeeded, QrsNeeded) -> bool)
  {
    && (forall a :: Irreflexive(less, a))
    && (forall a, b, c :: Transitive(less, a, b, c))
    && (forall a, b :: Connected(less, a, b))
  }

  /** Fewer parts first, then the smaller version, then the narrower part. */
  function FewerThenSmaller(a: QrsNeeded, b: QrsNeeded): bool
  {
    || a.count < b.count
    || (a.count == b.count && a.version < b.version)
    || (a.count == b.count && a.version == b.version && a.dataPerQr < b.dataPerQr)
  }

  type Ordering = less: (QrsNeeded, QrsNeeded) -> bool | StrictTotalOrder(less)
    witness FewerThenSmaller

  /** `<` on `QrsNeeded`: some strict total order. */
  const QrsLess: Ordering

  /** A plan made for version v is a plan at version v. */
  predicate PlansFor(plan: (Encode.Encoded, Version) -> QrsNeeded, e: Encode.Encoded, v: Version)
  {
    plan(e, v).version == v
  }

  type Planner = plan: (Encode.Encoded, Version) -> QrsNeeded
    | forall e, v :: PlansFor(plan, e, v)
    witness (e: Encode.Encoded, v: Version) => QrsNeeded(v, 1, |e.data|)

  /** `Encoded::number_of_qrs_needed`: the candidate for one version. */
  const NumberOfQrsNeeded: Planner

  /** The planner's candidate for version v is at version v. */
  lemma PlanVersion(e: Encode.Encoded, v: Version)
    ensures NumberOfQrsNeeded(e, v).version == v
  {
    assert PlansFor(NumberOfQrsNeeded, e, v);
  }
}

=== FILE: radix36.dfy ===
/** Rust's `usize::from_str_radix(s, 36)` as the header parser and the joiner
    use it: an optional leading `+`, then one or more case-insensitive base-36
    digits, with a result that must fit in 64 bits. */
module Radix36 {
  import opened Wrappers

  /** 2^64: one more than the largest `usize` on a 64-bit target. */
  const UsizeLimit: nat := 0x1_0000_0000_0000_0000

  /** The largest value two base-36 digits can hold: "ZZ". */
  const MaxTwoDigits: nat := 36 * 36 - 1

  /** `char::to_digit(36)`: decimal digits, then letters of either case. */
  function DigitValue(c: char): (r: Option<nat>)
    ensures r.Some? <==> ('0' <= c <= '9' || 'a' <= c <= 'z' || 'A' <= c <= 'Z')
    ensures r.Some? ==> r.value < 36
    ensures 'a' <= c <= 'z' ==> r == DigitValue((c as int - 32) as char)
  {
    if '0' <= c <= '9' then Some(c as nat - '0' as nat)
    else if 'a' <= c <= 'z' then Some(c as nat - 'a' as nat + 10)
    else if 'A' <= c <= 'Z' then Some(c as nat - 'A' as nat + 10)
    else None
  }

  /** The upper-case digit for a value below 36: the digit the protocol writes. */
  function UpperDigit(n: nat): (c: char)
    requires n < 36
    ensures DigitValue(c) == Some(n)
  {
    if n < 10 then ('0' as nat + n) as char else ('A' as nat + n - 10) as char
  }

  function Pow36(k: nat): (r: nat)
    ensures r >= 1
  {
    if k == 0 then 1 else 36 * Pow36(k - 1)
  }

  /** The big-endian value of a string made only of base-36 digits. */
  function DigitsValue(ds: string): (r: Option<nat>)
    ensures r.Some? <==> forall i :: 0 <= i < |ds| ==> DigitValue(ds[i]).Some?
    ensures r.Some? ==> r.value < Pow36(|ds|)
    ensures |ds| == 0 ==> r == Some(0)
    ensures |ds| == 1 ==> r == DigitValue(ds[0])
  {
    if |ds| == 0 then Some(0)
    else
      var front := DigitsValue(ds[..|ds| - 1]);
      var last := DigitValue(ds[|ds| - 1]);
      if front.None? || last.None? then
        None
      else
        assert forall i :: 0 <= i < |ds| - 1 ==> ds[..|ds| - 1][i] == ds[i];
        Some(front.value * 36 + last.value)
  }

  /** `usize::from_str_radix(s, 36)`. */
  function ParseUsize(s: string): (r: Option<nat>)
    ensures r.Some? ==> r.value < UsizeLimit
    ensures |s| == 0 ==> r.None?
    ensures r.Some? ==>
      var k := if s[0] == '+' then 1 else 0;
      k < |s| && forall i :: k <= i < |s| ==> DigitValue(s[i]).Some?
    ensures |s| == 1 ==> r == DigitValue(s[0])
    ensures |s| == 2 && DigitValue(s[0]).Some? && DigitValue(s[1]).Some? ==>
      r == Some(DigitValue(s[0]).value * 36 + DigitValue(s[1]).value)
  {
    if |s| == 0 then None
    else
      var digits := if s[0] == '+' then s[1..] else s;
      if |digits| == 0 then None
      else
        var v := DigitsValue(digits);
        if v.Some? && v.value < UsizeLimit then v else None
  }

  /** Two digits, upper case, zero-padded: the rendering `int_to_padded_base_36`
      is expected to produce for an index or a part count. */
  function PadTwo(n: nat): (r: string)
    ensures |r| == 2
    ensures n <= MaxTwoDigits ==> ParseUsize(r) == Some(n)
  {
    var r := [UpperDigit(n / 36 % 36), UpperDigit(n % 36)];
    assert r[..1] == [r[0]] && r[..1][..0] == [];
    assert DigitsValue(r[..1]) == Some(n / 36 % 36);
    assert n <= MaxTwoDigits ==> n / 36 % 36 * 36 + n % 36 == n;
    r
  }

  /** A two-character field never parses above "ZZ" = 1295. */
  lemma TwoCharsBounded(s: string)
    requires |s| == 2
    requires ParseUsize(s).Some?
    ensures ParseUsize(s).value <= MaxTwoDigits
  {
    if s[0] == '+' {
      assert s[1..][..0] == [];
    } else {
      assert s[..1] == [s[0]];
      assert s[..1][..0] == [];
    }
  }

  /** Digits are read case-insensitively: "zz" and "ZZ" are the same number. */
  lemma CaseInsensitive(s: string, t: string)
    requires |s| == |t|
    requires forall i :: 0 <= i < |s| ==> DigitValue(s[i]) == DigitValue(t[i])
    requires |s| > 0 ==> (s[0] == '+' <==> t[0] == '+')
    ensures ParseUsize(s) == ParseUsize(t)
  {
    if |s| > 0 {
      var ds := if s[0] == '+' then s[1..] else s;
      var dt := if t[0] == '+' then t[1..] else t;
      DigitsAgree(ds, dt);
    }
  }

  lemma {:induction false} DigitsAgree(s: string, t: string)
    requires |s| == |t|
    requires forall i :: 0 <= i < |s| ==> DigitValue(s[i]) == DigitValue(t[i])
    ensures DigitsValue(s) == DigitsValue(t)
  {
    if |s| > 0 {
      DigitsAgree(s[..|s| - 1], t[..|t| - 1]);
    }
  }

  /** The value read most significant digit first: the leading digit is
      worth its value times 36 to the power of the digits after it. */
  lemma {:induction false} LeadingDigit(c: char, ds: string)
    requires DigitValue(c).Some?
    ensures DigitsValue([c] + ds).Some? <==> DigitsValue(ds).Some?
    ensures DigitsValue(ds).Some? ==>
      DigitsValue([c] + ds) == Some(DigitValue(c).value * Pow36(|ds|) + DigitsValue(ds).value)
    decreases |ds|
  {
    if |ds| > 0 {
      var front := ds[..|ds| - 1];
      var last := ds[|ds| - 1];
      assert ([c] + ds)[..|ds|] == [c] + front;
      assert ([c] + ds)[|ds|] == last;
      LeadingDigit(c, front);
      if DigitsValue(ds).Some? {
        var cv, fv, lv := DigitValue(c).value, DigitsValue(front).value, DigitValue(last).value;
        assert DigitsValue([c] + ds).value == DigitsValue([c] + front).value * 36 + lv;
        ShiftDigit(cv, Pow36(|front|), fv, lv);
      }
    }
  }

  lemma ShiftDigit(c: nat, p: nat, f: nat, l: nat)
    ensures (c * p + f) * 36 + l == c * (36 * p) + (f * 36 + l)
  {
  }

  /** Up to twelve digits, with or without a leading `+`, always parse:
      36^12 is below 2^64. */
  lemma TwelveDigitsFit(s: string)
    requires 0 < |s| && s[0] != '+' && |s| <= 12
    requires forall i :: 0 <= i < |s| ==> DigitValue(s[i]).Some?
    ensures ParseUsize(s).Some? && ParseUsize(['+'] + s) == ParseUsize(s)
  {
    Pow36Grows(|s|, 12);
    assert Pow36(12) == 4738381338321616896;
    PlusIgnored(s);
  }

  lemma {:induction false} Pow36Grows(j: nat, k: nat)
    requires j <= k
    ensures Pow36(j) <= Pow36(k)
    decreases k
  {
    if j < k {
      Pow36Grows(j, k - 1);
    }
  }

  /** A leading `+` is accepted and ignored when digits follow it. */
  lemma PlusIgnored(ds: string)
    requires |ds| > 0 && ds[0] != '+'
    ensures ParseUsize(['+'] + ds) == ParseUsize(ds)
  {
    assert (['+'] + ds)[1..] == ds;
  }
}

=== FILE: slicing.dfy ===
/** Cutting the encoded text into equal-width payloads, as the splitter's loop
    does: payload i is the text from i*d up to (i+1)*d, clipped to the end. */
module Slicing {
  import opened Wrappers

  /** a*d, the offset of payload a when every payload is d characters wide,
      written as repeated addition. Every product in the slicing is of this
      form; the recursive definition keeps these products out of the
      verifier's non-linear arithmetic, and MulIsProduct ties it to `*`. */
  function Mul(a: nat, d: nat): nat
  {
    if a == 0 then 0 else Mul(a - 1, d) + d
  }

  lemma {:induction false} MulIsProduct(a: nat, d: nat)
    ensures Mul(a, d) == a * d
  {
    if a > 0 {
      MulIsProduct(a - 1, d);
    }
  }

  lemma MulStep(a: nat, d: nat)
    ensures Mul(a + 1, d) == Mul(a, d) + d
  {
  }

  lemma {:induction false} MulMono(a: nat, b: nat, d: nat)
    requires a <= b
    ensures Mul(a, d) <= Mul(b, d)
    decreases b - a
  {
    if a < b {
      MulMono(a, b - 1, d);
    }
  }

  lemma {:induction false} MulByZero(a: nat)
    ensures Mul(a, 0) == 0
  {
    if a > 0 {
      MulByZero(a - 1);
    }
  }

  /** The concatenation of a list of strings, in order. */
  function Concat(ss: seq<string>): (r: string)
  {
    if |ss| == 0 then "" else Concat(ss[..|ss| - 1]) + ss[|ss| - 1]
  }

  /** Payload i of width d starts inside t (or at its end). */
  predicate StartsIn(t: string, d: nat, i: nat)
  {
    Mul(i, d) <= |t|
  }

  /** Payload i of text t cut every d characters. */
  function Payload(t: string, d: nat, i: nat): string
    requires StartsIn(t, d, i)
  {
    t[Mul(i, d) .. Min(Mul(i, d) + d, |t|)]
  }

  /** Each of the first n payloads of width d starts inside t (or at its
      end), so cutting them does not run past the text. */
  predicate Cuttable(t: string, d: nat, n: nat)
  {
    n == 0 || StartsIn(t, d, n - 1)
  }

  /** n payloads of width d cover t, and the last of them starts inside it
      (or at its end). */
  predicate Covers(t: string, d: nat, n: nat)
  {
    n >= 1 && Cuttable(t, d, n) && |t| <= Mul(n, d)
  }

  /** n payloads of width d cover t and the last of them is not empty. */
  predicate CoversTightly(t: string, d: nat, n: nat)
  {
    Covers(t, d, n) && Mul(n - 1, d) < |t|
  }

  /** Entry i of ps is payload i of t. */
  predicate PayloadsOf(t: string, d: nat, ps: seq<string>)
  {
    forall i :: 0 <= i < |ps| ==> StartsIn(t, d, i) && ps[i] == Payload(t, d, i)
  }

  /** The first n payloads, in index order. */
  function Payloads(t: string, d: nat, n: nat): (r: seq<string>)
    requires Cuttable(t, d, n)
    ensures |r| == n
    ensures PayloadsOf(t, d, r)
  {
    if n == 0 then []
    else
      assert n == 1 || Mul(n - 2, d) <= Mul(n - 1, d) by {
        if n >= 2 { MulStep(n - 2, d); }
      }
      var front := Payloads(t, d, n - 1);
      var r := front + [Payload(t, d, n - 1)];
      r
  }

  /** The payloads, in index order, spell out the text up to n*d. */
  lemma PayloadsSpellPrefix(t: string, d: nat, n: nat)
    requires Cuttable(t, d, n)
    ensures Concat(Payloads(t, d, n)) == t[..Min(Mul(n, d), |t|)]
  {
    ListSpellsPrefix(t, d, Payloads(t, d, n));
  }

  /** Any list whose entry i is payload i spells the text up to |ps|*d. The
      induction runs over the list rather than over Payloads, which keeps
      each step small. */
  lemma {:induction false} ListSpellsPrefix(t: string, d: nat, ps: seq<string>)
    requires Cuttable(t, d, |ps|) && PayloadsOf(t, d, ps)
    ensures Concat(ps) == t[..Min(Mul(|ps|, d), |t|)]
  {
    var n := |ps|;
    if n > 0 {
      var front := ps[..n - 1];
      assert Cuttable(t, d, n - 1) && PayloadsOf(t, d, front) by {
        if n >= 2 { MulStep(n - 2, d); }
      }
      ListSpellsPrefix(t, d, front);
      var x, y := Mul(n - 1, d), Min(Mul(n, d), |t|);
      assert x <= y && ps[n - 1] == t[x..y] by {
        MulStep(n - 1, d);
      }
      ConcatExtends(ps, t, x, y);
    }
  }

  /** Appending the next slice of t to a list that spells t up to x spells t
      up to the slice's end. */
  lemma ConcatExtends(ps: seq<string>, t: string, x: nat, y: nat)
    requires |ps| >= 1 && x <= y <= |t|
    requires Concat(ps[..|ps| - 1]) == t[..x] && ps[|ps| - 1] == t[x..y]
    ensures Concat(ps) == t[..y]
  {
    SlicesJoin(t, x, y);
  }

  lemma SlicesJoin(t: string, x: nat, y: nat)
    requires x <= y <= |t|
    ensures t[..x] + t[x..y] == t[..y]
  {
  }

  /** When n payloads of width d cover the text, they spell it exactly. */
  lemma PayloadsCover(t: string, d: nat, n: nat)
    requires Covers(t, d, n)
    ensures Concat(Payloads(t, d, n)) == t
  {
    PayloadsSpellPrefix(t, d, n);
    assert t[..|t|] == t;
  }

  /** When the text reaches into the last payload, no payload is empty. */
  lemma PayloadsNonEmpty(t: string, d: nat, n: nat, i: nat)
    requires CoversTightly(t, d, n) && i < n
    ensures StartsIn(t, d, i) && Payload(t, d, i) != ""
  {
    MulMono(i, n - 1, d);
    if d == 0 {
      MulByZero(n);
    }
  }

  /** No string of the list is empty. */
  predicate NoneEmpty(ss: seq<string>)
  {
    forall i :: 0 <= i < |ss| ==> ss[i] != ""
  }

  /** When the text reaches into the last of n payloads, none of them is
      empty. */
  lemma NoPayloadEmpty(t: string, d: nat, n: nat)
    requires CoversTightly(t, d, n)
    ensures NoneEmpty(Payloads(t, d, n))
  {
    forall i | 0 <= i < n
      ensures Payloads(t, d, n)[i] != ""
    {
      PayloadsNonEmpty(t, d, n, i);
    }
  }

  /** All payloads but the last are the payloads of the text before the
      last one starts. */
  lemma PayloadsFront(t: string, d: nat, n: nat, u: string)
    requires n >= 1 && Mul(n - 1, d) <= |t| && u == t[..Mul(n - 1, d)]
    ensures Payloads(t, d, n)[..n - 1] == Payloads(u, d, n - 1)
  {
    PayloadsOfPrefix(t, d, n - 1);
    assert Payloads(t, d, n)[..n - 1] == Payloads(t, d, n - 1);
  }

  /** When n payloads cover the text, the last one is everything from
      offset n-1 on. */
  lemma LastPayload(t: string, d: nat, n: nat)
    requires Covers(t, d, n)
    ensures Payloads(t, d, n)[n - 1] == t[Mul(n - 1, d)..]
  {
    MulStep(n - 1, d);
  }

  /** Every payload but the last is exactly d characters wide. */
  lemma PayloadWidth(t: string, d: nat, n: nat, i: nat)
    requires n >= 1 && Mul(n - 1, d) <= |t|
    requires i + 1 < n
    ensures Mul(i, d) <= |t| && |Payload(t, d, i)| == d
  {
    MulStep(i, d);
    MulMono(i + 1, n - 1, d);
  }

  /** The first k payloads only look at the first k*d characters. */
  lemma PayloadsOfPrefix(t: string, d: nat, k: nat)
    requires Mul(k, d) <= |t|
    ensures k == 0 || Mul(k - 1, d) <= |t[..Mul(k, d)]|
    ensures Payloads(t, d, k) == Payloads(t[..Mul(k, d)], d, k)
  {
    if k > 0 {
      MulMono(k - 1, k, d);
      var u := t[..Mul(k, d)];
      forall i | 0 <= i < k
        ensures Payloads(t, d, k)[i] == Payloads(u, d, k)[i]
      {
        PayloadOfPrefix(t, d, k, i);
      }
    }
  }

  /** Payload i < k of t is payload i of its first k*d characters. */
  lemma {:induction false} PayloadOfPrefix(t: string, d: nat, k: nat, i: nat)
    requires Mul(k, d) <= |t| && i < k
    ensures Mul(i, d) + d <= Mul(k, d)
    ensures Payload(t, d, i) == Payload(t[..Mul(k, d)], d, i)
  {
    MulStep(i, d);
    MulMono(i + 1, k, d);
    var u := t[..Mul(k, d)];
    var lo := Mul(i, d);
    assert Payload(t, d, i) == t[lo..lo + d];
    assert Payload(u, d, i) == u[lo..lo + d];
  }
}

=== FILE: split.dfy ===
/** The splitter of src/split.rs: option validation, the choice of the best
    QR version, and the deterministic slicing of the encoded text into
    self-describing parts. */
module Split {
  import opened Wrappers
  import opened Encodings
  import FileTypes
  import Encode
  import Headers
  import Consts
  import Qr
  import Slicing

  datatype SplitError =
    | Empty
    | CannotFit
    | MaxSplitSizeTooLarge(max: nat)
    | MinSplitTooSmall
    | InvalidSplitRange
    | InvalidVersionRange
    | EncodeError(error: Encode.EncodeError)
      /** Not an error value of the source: slicing past the end of the
          encoded text panics. */
    | SlicePanic

  datatype Split = Split(version: Qr.Version, parts: seq<string>, encoding: Encoding)

  datatype SplitOptions = SplitOptions(
    encoding: Encoding,
    minSplitNumber: nat,
    maxSplitNumber: nat,
    minVersion: Qr.Version,
    maxVersion: Qr.Version)

  /** The options that `validate` accepts. */
  predicate ValidOptions(o: SplitOptions)
  {
    && o.maxSplitNumber <= Consts.MaxParts
    && o.minSplitNumber <= o.maxSplitNumber
    && o.minVersion <= o.maxVersion
    && o.minSplitNumber >= 1
  }

  /** `SplitOptions::validate`: four checks in a fixed order, each with its
      own error. */
  function Validate(o: SplitOptions): (r: Result<(), SplitError>)
    ensures r.Ok? <==> ValidOptions(o)
    ensures o.maxSplitNumber > Consts.MaxParts ==> r == Err(MaxSplitSizeTooLarge(o.maxSplitNumber))
    ensures o.maxSplitNumber <= Consts.MaxParts && o.minSplitNumber > o.maxSplitNumber ==>
      r == Err(InvalidSplitRange)
    ensures (o.maxSplitNumber <= Consts.MaxParts && o.minSplitNumber <= o.maxSplitNumber
             && o.minVersion > o.maxVersion) ==> r == Err(InvalidVersionRange)
    ensures (o.maxSplitNumber <= Consts.MaxParts && o.minSplitNumber <= o.maxSplitNumber
             && o.minVersion <= o.maxVersion && o.minSplitNumber < 1) ==> r == Err(MinSplitTooSmall)
  {
    if o.maxSplitNumber > Consts.MaxParts then Err(MaxSplitSizeTooLarge(o.maxSplitNumber))
    else if o.minSplitNumber > o.maxSplitNumber then Err(InvalidSplitRange)
    else if o.minVersion > o.maxVersion then Err(InvalidVersionRange)
    else if o.minSplitNumber < 1 then Err(MinSplitTooSmall)
    else Ok(())
  }

  /** `SplitOptions::default`: Zlib, 1 to 1295 parts, V01 to V40. It passes
      validation exactly when the part ceiling admits 1295 parts. */
  function Default(): (o: SplitOptions)
    ensures o.encoding == Zlib && o.minVersion == Qr.V01 && o.maxVersion == Qr.V40
    ensures Validate(o).Ok? <==> Consts.MaxParts >= 1295
  {
    SplitOptions(Zlib, 1, 1295, Qr.V01, Qr.V40)
  }

  /** A candidate the search keeps: within the part ceiling and the caller's
      split range. */
  predicate Admitted(q: Qr.QrsNeeded, o: SplitOptions)
  {
    q.count <= Consts.MaxParts && o.minSplitNumber <= q.count <= o.maxSplitNumber
  }

  /** Version w is searched and its candidate is kept. */
  predicate SurvivorAt(e: Encode.Encoded, o: SplitOptions, w: nat)
  {
    o.minVersion <= w <= o.maxVersion && Admitted(Qr.NumberOfQrsNeeded(e, w), o)
  }

  /** One turn of the search loop: skip a candidate that is not admitted,
      take the first admitted one, and afterwards replace the best only by a
      strictly smaller candidate. */
  function Consider(best: Option<Qr.QrsNeeded>, q: Qr.QrsNeeded, o: SplitOptions): (r: Option<Qr.QrsNeeded>)
    ensures r.None? <==> best.None? && !Admitted(q, o)
    ensures r.Some? && r != best ==> r.value == q && Admitted(q, o)
    ensures best.Some? && r != best ==> Qr.QrsLess(q, best.value)
    ensures best.Some? && Admitted(q, o) && Qr.QrsLess(q, best.value) ==> r == Some(q)
  {
    if !Admitted(q, o) then best
    else match best
      case None => Some(q)
      case Some(b) => if Qr.QrsLess(q, b) then Some(q) else best
  }

  /** What the search knows after looking at versions minVersion .. v-1: no
      best means no survivor; otherwise the best is a survivor's candidate,
      no survivor is strictly smaller, and it is strictly smaller than every
      survivor at a lower version. */
  ghost predicate BestSoFar(e: Encode.Encoded, o: SplitOptions, v: nat, best: Option<Qr.QrsNeeded>)
  {
    && (best.None? ==> forall w :: o.minVersion <= w < v ==> !SurvivorAt(e, o, w))
    && (best.Some? ==>
      && o.minVersion <= best.value.version < v
      && SurvivorAt(e, o, best.value.version)
      && best.value == Qr.NumberOfQrsNeeded(e, best.value.version)
      && forall w: nat :: w < v && SurvivorAt(e, o, w) ==>
        && !Qr.QrsLess(Qr.NumberOfQrsNeeded(e, w), best.value)
        && (w < best.value.version ==> Qr.QrsLess(best.value, Qr.NumberOfQrsNeeded(e, w))))
  }

  lemma LessTransitive(a: Qr.QrsNeeded, b: Qr.QrsNeeded, c: Qr.QrsNeeded)
    requires Qr.QrsLess(a, b) && Qr.QrsLess(b, c)
    ensures Qr.QrsLess(a, c)
  {
    assert Qr.Transitive(Qr.QrsLess, a, b, c);
  }

  lemma LessTotal(a: Qr.QrsNeeded, b: Qr.QrsNeeded)
    requires a != b
    ensures Qr.QrsLess(a, b) || Qr.QrsLess(b, a)
  {
    assert Qr.Connected(Qr.QrsLess, a, b);
  }

  lemma LessIrreflexive(a: Qr.QrsNeeded)
    ensures !Qr.QrsLess(a, a)
  {
    assert Qr.Irreflexive(Qr.QrsLess, a);
  }

  /** Looking at version v keeps the search's knowledge true for v+1. */
  lemma ConsiderStep(e: Encode.Encoded, o: SplitOptions, v: Qr.Version, best: Option<Qr.QrsNeeded>)
    requires o.minVersion <= v <= o.maxVersion
    requires BestSoFar(e, o, v, best)
    ensures BestSoFar(e, o, v + 1, Consider(best, Qr.NumberOfQrsNeeded(e, v), o))
  {
    var q := Qr.NumberOfQrsNeeded(e, v);
    Qr.PlanVersion(e, v);
    var next := Consider(best, q, o);
    if Admitted(q, o) && best.Some? {
      var b := best.value;
      if Qr.QrsLess(q, b) {
        forall w: nat | w < v + 1 && SurvivorAt(e, o, w)
          ensures !Qr.QrsLess(Qr.NumberOfQrsNeeded(e, w), q)
          ensures w < v ==> Qr.QrsLess(q, Qr.NumberOfQrsNeeded(e, w))
        {
          var c := Qr.NumberOfQrsNeeded(e, w);
          if w == v {
            LessIrreflexive(q);
          } else {
            if Qr.QrsLess(c, q) {
              LessTransitive(c, q, b);
            }
            if c == b {
            } else if w < b.version {
              LessTransitive(q, b, c);
            } else {
              LessTotal(c, b);
              LessTransitive(q, b, c);
            }
          }
        }
      } else {
        forall w: nat | w < v + 1 && SurvivorAt(e, o, w)
          ensures !Qr.QrsLess(Qr.NumberOfQrsNeeded(e, w), b)
          ensures w < b.version ==> Qr.QrsLess(b, Qr.NumberOfQrsNeeded(e, w))
        {
        }
      }
    } else if Admitted(q, o) {
      LessIrreflexive(q);
    }
  }

  /** The search loop over versions v .. maxVersion. */
  function ScanVersions(e: Encode.Encoded, o: SplitOptions, v: nat, best: Option<Qr.QrsNeeded>): (r: Option<Qr.QrsNeeded>)
    requires o.minVersion <= v <= o.maxVersion + 1
    requires BestSoFar(e, o, v, best)
    ensures BestSoFar(e, o, o.maxVersion + 1, r)
    decreases o.maxVersion + 1 - v
  {
    if v > o.maxVersion then best
    else
      ConsiderStep(e, o, v, best);
      ScanVersions(e, o, v + 1, Consider(best, Qr.NumberOfQrsNeeded(e, v), o))
  }

  /** `find_best_version`: the smallest admitted candidate in the version
      range, the earliest version winning among equals, provided its parts
      hold the whole text. */
  function FindBestVersion(e: Encode.Encoded, o: SplitOptions): (r: Result<Qr.QrsNeeded, SplitError>)
    requires o.minVersion <= o.maxVersion
    ensures r.Err? ==> r.error == CannotFit
    ensures (forall w: nat :: !SurvivorAt(e, o, w)) ==> r == Err(CannotFit)
    ensures r.Ok? ==>
      && SurvivorAt(e, o, r.value.version)
      && r.value == Qr.NumberOfQrsNeeded(e, r.value.version)
      && Slicing.Mul(r.value.count, r.value.dataPerQr) >= |e.data|
    ensures r.Ok? ==> forall w: nat :: SurvivorAt(e, o, w) ==>
      && !Qr.QrsLess(Qr.NumberOfQrsNeeded(e, w), r.value)
      && (w < r.value.version ==> Qr.QrsLess(r.value, Qr.NumberOfQrsNeeded(e, w)))
    ensures r.Err? && (exists w: nat :: SurvivorAt(e, o, w)) ==>
      var best := ScanVersions(e, o, o.minVersion, None).value;
      Slicing.Mul(best.count, best.dataPerQr) < |e.data|
  {
    var best := ScanVersions(e, o, o.minVersion, None);
    if best.None? then Err(CannotFit)
    else if Slicing.Mul(best.value.count, best.value.dataPerQr) < |e.data| then Err(CannotFit)
    else Ok(best.value)
  }

  /** The parts in index order: the header, the padded index, then the
      payload. */
  function Parts(header: string, payloads: seq<string>): (r: seq<string>)
    ensures |r| == |payloads|
    ensures forall i :: 0 <= i < |r| ==> r[i] == header + Headers.PaddedBase36(i) + payloads[i]
  {
    if |payloads| == 0 then []
    else
      var n := |payloads| - 1;
      Parts(header, payloads[..n]) + [header + Headers.PaddedBase36(n) + payloads[n]]
  }

  /** `split_qrs` (`Split::try_from_data`). */
  function SplitQrs(bytes: seq<byte>, fileType: FileTypes.FileType, o: SplitOptions): (r: Result<Split, SplitError>)
    ensures |bytes| == 0 ==> r == Err(Empty)
    ensures |bytes| > 0 && !ValidOptions(o) ==> r == Err(Validate(o).error)
    ensures |bytes| > 0 && ValidOptions(o) && Encode.TryNewFromData(bytes, o.encoding).Err? ==>
      r == Err(EncodeError(Encode.TryNewFromData(bytes, o.encoding).error))
    ensures r.Ok? ==> ValidOptions(o) && Encode.TryNewFromData(bytes, o.encoding).Ok?
    ensures r.Ok? ==> r == SplitEncoded(Encode.TryNewFromData(bytes, o.encoding).value, fileType, o)
  {
    if |bytes| == 0 then Err(Empty)
    else match Validate(o)
      case Err(err) => Err(err)
      case Ok(_) =>
        match Encode.TryNewFromData(bytes, o.encoding)
        case Err(err) => Err(EncodeError(err))
        case Ok(e) => SplitEncoded(e, fileType, o)
  }

  /** The rest of `split_qrs` once the options are valid and the data is
      encoded: choose the plan, then cut the text and lay out the parts. */
  function SplitEncoded(e: Encode.Encoded, fileType: FileTypes.FileType, o: SplitOptions): (r: Result<Split, SplitError>)
    requires ValidOptions(o)
    ensures FindBestVersion(e, o).Err? ==> r == Err(FindBestVersion(e, o).error)
    ensures FindBestVersion(e, o).Ok? ==>
      var best := FindBestVersion(e, o).value;
      && 1 <= best.count
      && (r.Ok? <==> Slicing.Covers(e.data, best.dataPerQr, best.count))
      && (r.Err? ==> r == Err(SlicePanic))
    ensures r.Ok? ==>
      var best := FindBestVersion(e, o).value;
      && r.value.encoding == e.encoding
      && r.value.version == best.version
      && |r.value.parts| == best.count
      && Slicing.Covers(e.data, best.dataPerQr, best.count)
      && r.value.parts == Parts(Headers.ToText(Headers.Header(e.encoding, fileType, best.count)),
                                Slicing.Payloads(e.data, best.dataPerQr, best.count))
  {
    match FindBestVersion(e, o)
    case Err(err) => Err(err)
    case Ok(best) =>
      if best.count >= 1 && Slicing.Mul(best.count - 1, best.dataPerQr) > |e.data| then Err(SlicePanic)
      else
        var header := Headers.ToText(Headers.Header(e.encoding, fileType, best.count));
        Ok(Split(best.version, Parts(header, Slicing.Payloads(e.data, best.dataPerQr, best.count)), e.encoding))
  }
}

=== FILE: wrappers.dfy ===
/** Option and Result, in the shape of Rust's `Option<T>` and `Result<T, E>`,
    plus the byte type the payloads are made of. */
module Wrappers {

  /** An optional value: Rust's `Option<T>`. */
  datatype Option<+T> = None | Some(value: T)

  /** A value or an error: Rust's `Result<T, E>`. */
  datatype Result<+T, +E> = Ok(value: T) | Err(error: E)

  /** One octet of payload data (Rust's `u8`). Text, by contrast, is a `string`
      whose characters stand for the ASCII bytes the protocol uses. */
  type byte = b: nat | b < 256

  function Min(a: nat, b: nat): nat
  {
    if a <= b then a else b
  }
}
